=== FILE: README.md ===
# aws-web-pub, modelled in Dafny

aws-web-pub publishes a static website to AWS. The project directory holds
a `.aws-web-pub.json` configuration and a directory to publish. A command
line driver runs the AWS CDK. The CDK app builds one stack with these parts:

- an S3 bucket
- a CloudFront distribution in front of the bucket
- an optional ACM certificate
- a Route 53 alias record for the primary domain
- redirect distributions for the other domains
- a bucket deployment that uploads the site and invalidates `/*` in the
  distribution's cache

The repository also holds a CloudFormation custom-resource handler that
invalidates a distribution's cache. None of the stacks in this model
creates that resource.

This project models the decision logic of that system as pure Dafny
functions and proves properties about them:

- `ProjectConfig` (`project_config.dfy`): the fail-fast configuration
  validator and the mapping from a valid configuration to the stack's
  props. Its `Json` datatype follows JavaScript truthiness (`json.dfy`).
- `HostedZoneLookup` (`hosted_zone_lookup.dfy`): the zone-name rule and the
  memoising hosted-zone cache. The cache is threaded through calls with a
  log of the external lookups it made.
- `StaticWebsiteStack` (`static_website_stack.dfy`) and `StaticWebStack`
  (`static_web_stack.dfy`): the two stack constructors. Each is a function
  from props to an abstract plan of constructs and outputs. The plan types
  live in `StackPlan` (`stack_plan.dfy`).
- `CloudFrontInvalidator` (`cloudfront_invalidator.dfy`): that custom-resource
  handler. It covers the invalidation request, the response body and its
  `JSON.stringify` text (`json_text.dfy`), the PUT, and the 2xx rule.
- `Cli` (`cli.dfy`): the `execCdk` argument vector and the sequencing of
  `publish` and `unpublish`.
- `Strings` (`strings.dfy`) and `Results` (`results.dfy`): `indexOf`,
  `join`, decimal rendering, and the option and result types.

The model treats external inputs as follows:

- CDK constructs are records of the arguments they are given.
- Deploy-time values are opaque tokens given as input: bucket names,
  distribution ids and domain names.
- `path.resolve` is an uninterpreted function.
- These are parameters:
  - the path of the CDK app
  - the exit status of each spawned process
  - the outcome of the invalidation
  - the clock
  - the result of the PUT

## Model

| member | source | states |
|---|---|---|
| ProjectConfig.DomainError | src/lib/ProjectConfig.ts:44-54 | a domain entry passes the loop body exactly when it is a non-null object with a truthy `name` whose `dnsZoneName`, when truthy, is a string |
| Json.FalsyValues | src/lib/ProjectConfig.ts:27-59 | the falsy parsed values, the ones every truthiness check rejects, are exactly `null`, `false`, `0` and `""`. Empty arrays and objects are truthy |
| ProjectConfig.FirstBadDomain | src/lib/ProjectConfig.ts:44-54 | the loop stops at the first failing entry: every earlier entry passes, and the entry it stops at fails (or it runs off the end) |
| ProjectConfig.Validate | src/lib/ProjectConfig.ts:26-62 | validation succeeds exactly on documents meeting every field rule of the `ProjectConfig` type, stated independently of check order, and then returns the input unchanged |
| ProjectConfig.ElementViolationsFirst | src/lib/ProjectConfig.ts:44-54 | an entry's list of violations is empty exactly when the loop body accepts it, and otherwise starts with the message the body throws |
| ProjectConfig.AllElementViolationsFirst | src/lib/ProjectConfig.ts:44-54 | over a whole domain list, the violations are empty exactly when the loop runs to the end, and otherwise the first one is the message of the entry where it stops |
| ProjectConfig.ValidateReportsFirstViolation | src/lib/ProjectConfig.ts:27-59 | fail-fast in the fixed order projectName, publishDir, notFoundPath, domains, certificateArn: the validator succeeds iff the full violation list is empty, and otherwise reports its first entry |
| ProjectConfig.RequiredFieldsRejected | src/lib/ProjectConfig.ts:27-33 | a missing, empty or non-string `projectName` is rejected with its own message whatever else the document holds; likewise `publishDir` once `projectName` passes |
| ProjectConfig.FalsyOptionalFieldIsAbsent | src/lib/ProjectConfig.ts:35-59 | a falsy `notFoundPath`, `domains` or `certificateArn` of any type is judged exactly as if the key were absent: same violations and same verdict |
| ProjectConfig.StackPropsFromProject | src/lib/ProjectConfig.ts:64-81 | stackName is projectName; publishDir is resolved against the project path; domains and certificateArn pass through unchanged; the error pages are empty for a falsy notFoundPath and otherwise exactly one 404→404 entry for it |
| ProjectConfig.GetStackProps | src/lib/ProjectConfig.ts:15-24 | props are derived exactly when validation succeeds, and then they are exactly `getStackPropsFromProject` of the validated document. A validation failure is passed on with its message |
| ProjectConfig.StackDomainsAsWritten | src/lib/StaticWebsiteStack.ts:25-27 | `props.domains ?? []` followed by array methods: absent or `null` gives the empty list and an array its elements. A boolean, number or object makes `.slice` throw (line 27), and a string survives `.slice` and then throws further on: `""` at the `.map` of line 133, and a longer string before any `.map`: at line 36 without an ARN, and with one where `getHostedZone` calls `.substring` on the first character's missing `.name` (src/lib/HostedZoneLookup.ts:29) |
| ProjectConfig.FalsyDomainsBreakTheStack | src/lib/ProjectConfig.ts:39-55 | a document with `"domains": false` passes validation, yet the website stack cannot read its domain list |
| ProjectConfig.StackDomains | src/lib/StaticWebsiteStack.ts:25 | every falsy domains value reads as the empty list, and an array reads as its elements |
| ProjectConfig.ValidatedDomainsReadable | src/lib/ProjectConfig.ts:39-55 | for every validated configuration, the stack reads a domain list and every entry in it is a well-formed domain |
| HostedZoneLookup.EmptyValid | src/lib/HostedZoneLookup.ts:6 | the empty cache with an empty lookup log satisfies the cache invariant |
| HostedZoneLookup.ZoneName | src/lib/HostedZoneLookup.ts:25-30 | an explicit non-empty dnsZoneName wins; otherwise a name without `.` is its own zone, and a name with one gives the suffix after its first `.` |
| HostedZoneLookup.ZoneNameStripsOneLabel | src/lib/HostedZoneLookup.ts:29 | only the first label is removed: `first.rest` has zone `rest`, however many labels `rest` has |
| HostedZoneLookup.GetHostedZone | src/lib/HostedZoneLookup.ts:12-23 | the cache invariant is preserved; a hit changes nothing and returns the cached handle; a miss appends exactly one lookup; afterwards the zone maps to the returned handle; existing entries are never overwritten |
| HostedZoneLookup.RepeatedLookupIsCached | src/lib/HostedZoneLookup.ts:15-21 | a second request for the same zone, even from a different domain, makes no new lookup and returns the first handle |
| HostedZoneLookup.GetHostedZones | src/lib/StaticWebsiteStack.ts:99-104 | resolving domains in turn with one shared cache: each handle is the cached handle for that domain's zone, earlier entries survive, and the cache keys grow by exactly the zones requested |
| HostedZoneLookup.SharedZoneSharedHandle | src/lib/HostedZoneLookup.ts:15-21 | two domains with the same derived zone receive the same handle |
| HostedZoneLookup.LogCountsZones | src/lib/HostedZoneLookup.ts:15-21 | under the cache invariant, no zone is looked up twice, so the lookup log is exactly as long as the set of cached zones |
| HostedZoneLookup.LookupsEqualDistinctZones | src/lib/HostedZoneLookup.ts:12-23 | from a fresh cache, the number of external lookups equals the number of distinct zone names requested |
| HostedZoneLookup.RecordKeys | src/lib/StaticWebStack.ts:31-34 | the record built by in-order assignment has exactly one key per distinct assigned key |
| HostedZoneLookup.RecordLastWins | src/lib/StaticWebStack.ts:31-34 | each key of that record holds the value of the last assignment to it |
| HostedZoneLookup.ZonesByName | src/lib/StaticWebStack.ts:31-34 | the zones record has one key per domain name, and the last domain with each name decides its zone handle. The cache grows by the zones of all domains and keeps every earlier entry |
| StackPlan.MakeOutputs | src/lib/StaticWebsiteStack.ts:111-138 | the ids and URLs are `", "`-joins with the main distribution first. RedirectingUrls is exactly the `", "`-join of `https://<name>` over every redirect name, in order. It is empty iff there are none, and otherwise starts with the first redirect URL. Urls is the primary URL or `""` |
| StackPlan.SourcesOf | src/lib/StaticWebsiteStack.ts:99-104 | one source per redirect domain, in order, with that domain's name and the handle resolved for it |
| StaticWebsiteStack.CertificateStep | src/lib/StaticWebsiteStack.ts:31-43 | a certificate exists iff there is a primary domain. A truthy ARN is imported with no lookup. Otherwise the certificate is requested for the primary name, with the redirect names in order as alternative names. It validates in a record with one key per domain name, in which each name maps to the cached handle of its own zone (the last domain with that name decides), as src/lib/StaticWebStack.ts:31-34 builds it |
| StaticWebsiteStack.CertificateStepAsWritten | src/lib/StaticWebsiteStack.ts:36 | the call to the undefined `getHostedZones` throws exactly when there is a primary domain and no truthy ARN |
| StaticWebsiteStack.GeneratedCertificateUnreachableAsWritten | src/lib/StaticWebsiteStack.ts:35-41 | on every input where a certificate should be requested, the code as written throws instead |
| StaticWebsiteStack.RedirectSources | src/lib/StaticWebsiteStack.ts:99-104 | one source per redirect domain, in order, each carrying that domain's name and the cached handle of its zone |
| StaticWebsiteStack.Build | src/lib/StaticWebsiteStack.ts:22-139 | the constructor with the corrected certificate step `CertificateStep` in place of line 36 (see Findings). The cache invariant holds after construction. The distribution list is `[main]` or `[main, redirect]`. The deployment invalidates `/*`, passes `deleteOldFiles` to `prune` unchanged, and uploads `publishDir`. The error pages pass through |
| StaticWebsiteStack.CertificatePolicy | src/lib/StaticWebsiteStack.ts:25-43 | a certificate exists iff the domain list is non-empty. A truthy ARN is imported. Otherwise the certificate covers `domains[0]`, with exactly the remaining names in order as alternative names. Each name validates in the zone the stack's lookup holds for that domain |
| StaticWebsiteStack.ViewerPolicy | src/lib/StaticWebsiteStack.ts:52-74 | the viewer certificate with alias `[primary name]` is attached iff there is a primary. The comment is the primary name, or `aws-web-pub site` when there is no primary or its name is empty (the `||` of line 53). The origin is the bucket's website domain |
| StaticWebsiteStack.ARecordPolicy | src/lib/StaticWebsiteStack.ts:76-84 | an A record exists iff there is a primary; it is named after the primary and lives in the primary's zone |
| StaticWebsiteStack.RedirectPolicy | src/lib/StaticWebsiteStack.ts:95-109 | a redirect construct exists iff there are at least two domains. Its sources are the redirect domains in order, each in its own zone, and its target is the primary name. It uses the stack's certificate |
| StaticWebsiteStack.OutputsPolicy | src/lib/StaticWebsiteStack.ts:111-138 | two distributions iff at least two domains. WebDistributionIds and WebDistributionUrls are joined with the main distribution first, for one distribution or two. RedirectingUrls is exactly the `", "`-join of `https://<name>` over every domain after the first, so it is empty iff there is at most one domain. Urls is `""` or the primary URL |
| StaticWebsiteStack.LookupPolicy | src/lib/StaticWebsiteStack.ts:29-104 | whatever the certificate choice, the cached zones are exactly the zones of the domains, and each was looked up once |
| StaticWebsiteStack.DomainInfoOf | src/lib/ProjectConfig.ts:61 | a parsed domain entry becomes a `DomainInfo` exactly when its `name` is a string. The name is carried over, and `dnsZoneName` is carried over exactly when it is a string (a falsy non-string is absent, as the lookup treats it) |
| StaticWebsiteStack.DomainInfosOf | src/lib/ProjectConfig.ts:61 | a parsed domain list converts exactly when every `name` is a string. Each entry converts on its own, in order, keeping its name and explicit zone |
| StaticWebsiteStack.ExplicitZoneReachesLookup | src/lib/HostedZoneLookup.ts:25-30 | for a validated domain entry, a truthy `dnsZoneName` is exactly the zone the lookup uses. Without one, the zone is derived from the name alone |
| StaticWebsiteStack.PropsFromProject | src/lib/ProjectConfig.ts:74-80 | the stack receives the project name as its stack name, publishDir and the error pages unchanged and no `deleteOldFiles`. A string ARN passes unchanged, and any other value becomes absent. The domain list is read by the corrected `StackDomains` (see Findings): a falsy or absent value becomes the empty list. An array passes entry by entry exactly when every entry converts, and a truthy non-array gives no props |
| StaticWebStack.CertificateStep | src/lib/StaticWebStack.ts:28-41 | a truthy ARN is imported with no lookup. Otherwise the certificate covers the head of the names list, with the tail as alternative names. Its zones record has one key per name, and each name maps to the handle `getHostedZone` returned for the last domain with that name. The cache grows by the zones of all domains |
| StaticWebStack.Build | src/lib/StaticWebStack.ts:24-120 | needs a non-empty domain list. The cache invariant holds; the deployment invalidates `/*`, sets no prune option and uploads `publishDir`; the error pages pass through |
| StaticWebStack.CertificatePolicy | src/lib/StaticWebStack.ts:28-41 | a certificate always exists. A truthy ARN is imported. Otherwise the certificate covers the first name with the rest as alternative names. It validates with one zone per domain name, each the zone the stack's lookup holds for that domain |
| StaticWebStack.AliasAndRecordPolicy | src/lib/StaticWebStack.ts:50-75 | the viewer certificate with alias `[primary name]`, the comment set to the primary name, and the A record for the primary in its own zone are always created |
| StaticWebStack.RedirectPolicy | src/lib/StaticWebStack.ts:85-96 | the redirect construct always exists, even for a single domain. Its sources are the other domains in order, each in its zone, and its target is the primary. There are always two distributions |
| StaticWebStack.OutputsPolicy | src/lib/StaticWebStack.ts:96-120 | Urls is always the primary URL. Both distributions are listed, main first. RedirectingUrls is exactly the `", "`-join of `https://<name>` over every domain after the first, so it is empty iff there is a single domain |
| StaticWebStack.LookupPolicy | src/lib/StaticWebStack.ts:26-91 | the cached zones are exactly the zones of the domains, each looked up once |
| CloudFrontInvalidator.HandleEvent | src/lambda/cloudFrontInvalidator/index.js:30-54 | missing ResourceProperties fail with the `TypeError` of reading `distributionId` on `undefined` (line 31). A missing or falsy distributionId fails with `distributionId is required` before the request type is examined, even for Delete. Create and Update request exactly one invalidation of `/*` with quantity `1`, whose caller reference reads back as the clock value. The event succeeds iff the id is present and no invalidation was needed or it completed. The result is the id, or the invalidation's own message |
| CloudFrontInvalidator.Respond | src/lambda/cloudFrontInvalidator/index.js:4-28 | the status is SUCCESS or FAILED, and RequestId, StackId and LogicalResourceId are echoed. SUCCESS comes with an empty reason and the distribution id as physical id. FAILED comes with the thrown message and no physical id |
| CloudFrontInvalidator.MembersFaithful | src/lambda/cloudFrontInvalidator/index.js:66-74 | the body has five members, six with a physical id, starting with Status and Reason; each value reads back unchanged from its JSON string literal |
| CloudFrontInvalidator.Serialize | src/lambda/cloudFrontInvalidator/index.js:66-74 | the body text is delimited by the object braces |
| CloudFrontInvalidator.SerializeReadsBack | src/lambda/cloudFrontInvalidator/index.js:66-74 | read back as a JSON object of string members, the body text gives exactly the body's members, one `"key":"value"` per field in insertion order |
| CloudFrontInvalidator.SerializeAscii | src/lambda/cloudFrontInvalidator/index.js:66-74 | the body text is ASCII exactly when every member value is: keys, quotes and escapes add only ASCII |
| CloudFrontInvalidator.PutRequestAsWritten | src/lambda/cloudFrontInvalidator/index.js:77-84 | the PUT of the serialised body to the response URL with the JSON content type, whose Content-Length counts UTF-16 code units |
| CloudFrontInvalidator.PutRequest | src/lambda/cloudFrontInvalidator/index.js:77-84 | the same PUT, with Content-Length equal to the UTF-8 byte count of the body that is written |
| CloudFrontInvalidator.ContentLengthAsWrittenShort | src/lambda/cloudFrontInvalidator/index.js:82 | the length as written never exceeds the bytes sent. It equals them exactly when the body is ASCII, that is, exactly when the status, reason and every id are ASCII |
| CloudFrontInvalidator.NonAsciiReasonUndercounts | src/lambda/cloudFrontInvalidator/index.js:82 | a single accented letter counts one UTF-16 unit but two bytes |
| CloudFrontInvalidator.Settle | src/lambda/cloudFrontInvalidator/index.js:101-106 | the request resolves iff the status is in [200, 300); any other status rejects with that status code, and a request error rejects as well |
| CloudFrontInvalidator.Handler | src/lambda/cloudFrontInvalidator/index.js:4-28 | one PUT to the event's response URL carrying the serialised response. The PUT is the corrected `PutRequest` (see Findings), whose Content-Length is the body's UTF-8 byte count. At most one invalidation, made iff the id is present and the request is Create or Update. The promise rejects iff the PUT's status is not 2xx |
| CloudFrontInvalidator.HandlerComposes | src/lambda/cloudFrontInvalidator/index.js:4-28 | the handler requests exactly the invalidations of `handleCustomResourceEvent`: one batch for the event's distribution, quantity `1`, path `/*`, caller reference reading back as the clock. Its promise rejects exactly as `urlRequest` settles the PUT (index.js:103-104) |
| JsonText.EscapeRoundTrip | src/lambda/cloudFrontInvalidator/index.js:74 | escaping a string as `JSON.stringify` does loses nothing: unescaping gives the string back |
| JsonText.QuoteRoundTrip | src/lambda/cloudFrontInvalidator/index.js:74 | a quoted JSON string literal reads back as the original string |
| JsonText.ReadObjectOfMembers | src/lambda/cloudFrontInvalidator/index.js:74 | any non-empty list of string members, written as `JSON.stringify` writes a flat object, reads back as that list in order |
| JsonText.Utf8CoversJsLength | src/lambda/cloudFrontInvalidator/index.js:82 | a string's UTF-8 byte count is at least its JavaScript `length`, with equality exactly for ASCII text |
| Cli.CdkArgs | src/bin/aws-web-pub.ts:54-81 | the profile pair comes first iff the profile is truthy. Then come `--output`, four `--context` pairs in fixed order ending with `project=<dir>`, `--app`, and the command's arguments last. Under the stated side conditions, `--profile` appears iff the profile is truthy |
| Cli.AppCommand | src/bin/aws-web-pub.ts:76-78 | the `--app` command is `node <app>`, or `ts-node --dir <cwd> <app>` under ts-node; either way it ends with a space and the app's path |
| Cli.CdkSpawn | src/bin/aws-web-pub.ts:49-89 | the process is `npx --no-install cdk`, then the CDK arguments for the resolved project directory; it runs in that directory's `aws-web-pub.out` |
| Cli.CheckStatus | src/bin/aws-web-pub.ts:91-93 | success iff the status is 0; any other status, `null` included, fails with `CDK failed with status: ` and the status text |
| Cli.StatusMessagesDistinct | src/bin/aws-web-pub.ts:92 | distinct failing statuses, `null` included, give distinct messages |
| Cli.RunAll | src/bin/aws-web-pub.ts:24-27 | commands run in order and stop at the first non-zero status. The spawned commands are a prefix of the list, and every one before the last exited 0. The run succeeds iff all exited 0, and a failure records the last spawned command's status |
| Cli.Publish | src/bin/aws-web-pub.ts:15-28 | bootstrap runs first, and deploy without approval runs iff bootstrap exits 0. The command succeeds iff both exit 0, and otherwise fails with the first failing status's message |
| Cli.Unpublish | src/bin/aws-web-pub.ts:29-41 | exactly one `destroy --force`, whose status decides the command as `execCdk` checks it |
| Cli.CommandArgv | src/bin/aws-web-pub.ts:45-89 | every spawned process is `npx --no-install cdk` in the build directory of the project directory argument, `.` when omitted, with the command's own arguments last |
| Strings.IndexOf | src/lib/HostedZoneLookup.ts:29 | `indexOf` returns -1 iff the character is absent, and otherwise its first position |
| Strings.Join | src/lib/StaticWebsiteStack.ts:125 | `join` of no elements is empty. Otherwise it starts with the first element and has every element's characters plus one separator per gap |
| Strings.JoinLoop | src/lib/StaticWebsiteStack.ts:125 | the loop that appends each element after a separator computes the recursive definition of `join` |
| Strings.NatToString | src/lambda/cloudFrontInvalidator/index.js:48 | the caller reference `${Date.now()}` is a non-empty string of decimal digits with no leading zero |
| Strings.NatToStringRoundTrip | src/lambda/cloudFrontInvalidator/index.js:48 | the decimal text of a number reads back as that number |

## Left out

- Reading and parsing `.aws-web-pub.json` is not modelled (`fs.readFileSync`, `JSON.parse`). The parsed document is the input.
- The bucket's fixed settings are not modelled: index and error documents, public read access and the removal policy. Their values do not depend on any input.
- The `S3Url` and `BucketName` outputs are built from deploy-time tokens passed in as input.
- `path.resolve` and `require.resolve` are uninterpreted: `resolve` is a parameter and the app path is an input.
- `ts-node` detection (`__filename`) and `process.cwd()` are left out. The launcher is an input.
- yargs is not modelled. The project directory argument is an optional string, `.` when omitted.
- `fs.mkdirSync` and `existsSync` are not modelled. `spawnSync` is modelled by its arguments and an exit status per command.
- Console logging is left out.
- The async and promise plumbing is left out. The handler is one sequential decision.
- `createInvalidation` and the `waitFor('invalidationCompleted')` polling are reduced to one outcome: completed, or failed with a message.
- `Date.now()` is the parameter `now`.
- `https.request` is not modelled. Its result is an input: a status code or a request error.
- The parsing of the response body after a 2xx status is not modelled, because its value is only logged.
- CloudFrontInvalidator.Settle: resolves on every 2xx status. In the source, a 2xx response with `content-type: application/json` and a body that is not JSON makes `JSON.parse` (src/lambda/cloudFrontInvalidator/index.js:110) throw inside the `'end'` listener. The promise then neither resolves nor rejects, and the exception is uncaught.
- Strings are sequences of Unicode scalar values, so the model covers well-formed Unicode text only. A JavaScript string can hold a lone surrogate: `JSON.stringify` writes it as a `\udxxx` escape, and Node writes it as U+FFFD, three bytes in UTF-8.
- JsonText.ReadObject: reads only the compact form `JSON.stringify` writes, with no whitespace between tokens and string values only. It is the reader the round trip is stated against, not a full `JSON.parse`.
- StaticWebsiteStack.DomainInfosOf: a domain entry whose `name` is truthy but not a string passes validation, and the model then builds no props. The source would pass such a value on to CDK.
- StaticWebStack.Build: requires a non-empty domain list, because the constructor reads `primaryDomain.name` unconditionally. The configuration loader can yield no domain list at all, while `StaticWebStackProps.domains` is required.
- HostedZoneLookup.GetHostedZone: assumes no zone name is the name of an `Object.prototype` member. The source's cache is a plain object, so for a zone named `constructor`, `toString` or `__proto__` the miss test at src/lib/HostedZoneLookup.ts:15-16 finds an inherited function, makes no lookup and returns that function. The model's map treats such a name as a miss. Such names are not DNS zones.
- HostedZoneLookup.ZonesByName: likewise assumes no domain is named `__proto__`. Assigning that key at src/lib/StaticWebStack.ts:33 would set the record's prototype instead of adding a key.
- CloudFrontInvalidator.Handler: sends the corrected `PutRequest`, whose Content-Length is the UTF-8 byte count. The source sends `responseBody.length`, which `PutRequestAsWritten` models (see Findings).
- StaticWebsiteStack.Build: uses the corrected `CertificateStep`. As written, the constructor throws for every primary domain without a truthy ARN, which `CertificateStepAsWritten` models (see Findings).
- StaticWebsiteStack.PropsFromProject: reads the domain list with the corrected `StackDomains`. As written, a falsy non-array such as `false` reaches src/lib/StaticWebsiteStack.ts:27 and throws (see Findings).
- The messages of a property read on `null` or `undefined` use the wording of V8 from Node.js 16 on: "Cannot read properties of null (reading 'x')". Older runtimes word it "Cannot read property 'x' of null".
- src/lib/DomainInfo.ts is not part of this model. The `DomainInfo` shape, a `name` and an optional `dnsZoneName`, is taken from how src/lib/HostedZoneLookup.ts:25-30 uses it.
- src/lib/AwsWebPubApp.ts is glue that reads the `project` context and spreads the props into the website stack, so it is not modelled. PropsFromProject states what the spread of `getStackProps` passes, the stack name included.
- StaticWebsiteStack.PropsFromProject: does not carry the app's `env` (src/lib/AwsWebPubApp.ts:11-15: the account from `CDK_DEFAULT_ACCOUNT` and the region `us-east-1`), because it is read from the process environment. `Build` does not use the stack name: `super(scope, id, props)` at src/lib/StaticWebsiteStack.ts:23 hands it to the CDK `Stack`, whose internals are not part of this model.
- Single-page-app error mappings and `deleteOldFiles` validation do not exist in the validator's code, so they are not modelled. `deleteOldFiles` appears only as the pass-through to `prune`, and the loader never sets it.
- The CDK construct internals are records of their arguments. Their internals are library code that is not part of this model: `DomainWebRedirect` and the certificate-validation and alias-target classes.

## Findings

| source | as written | input that shows it | evidently intended | confidence | as-written member | corrected member |
|---|---|---|---|---|---|---|
| src/lib/StaticWebsiteStack.ts:36 | calls `hostedZoneLookup.getHostedZones(domains)`, which HostedZoneLookup does not define, so the constructor throws | any non-empty domain list without `certificateArn` | a record from each domain name to `getHostedZone(d)`, as src/lib/StaticWebStack.ts:31-34 builds it | high, not executed | StaticWebsiteStack.CertificateStepAsWritten | StaticWebsiteStack.CertificateStep |
| src/lib/ProjectConfig.ts:39 with src/lib/StaticWebsiteStack.ts:25-27 | the validator skips a falsy `domains` of any type, but the stack replaces only `null`/`undefined` with `[]` and then calls `.slice` on the value | `{"projectName":"site","publishDir":"public","domains":false}` | a falsy domain list means no domains | high, not executed | ProjectConfig.StackDomainsAsWritten | ProjectConfig.StackDomains |
| src/lambda/cloudFrontInvalidator/index.js:82 | `Content-Length` is `responseBody.length`, a count of UTF-16 code units, while the body is written as UTF-8 | a failure reason containing `é` | the byte length of the body | medium, not executed | CloudFrontInvalidator.PutRequestAsWritten | CloudFrontInvalidator.PutRequest |

=== FILE: cli.dfy ===
/** The command-line driver of src/bin/aws-web-pub.ts: the argument vector
    handed to `npx` for each CDK invocation, and the sequencing of those
    invocations for `publish` and `unpublish`. `path.resolve` is the
    uninterpreted `resolve` (over its argument list); the path of the CDK app
    and the exit status of each spawned process are inputs. */
module Cli {
  import opened Results
  import opened Strings

  /** How the CDK app is launched: plain `node`, or `ts-node` from a working
      directory when the driver itself runs from TypeScript. */
  datatype Launcher = Node | TsNode(cwd: string)

  /** The environment `execCdk` reads. */
  datatype Env = Env(resolve: seq<string> -> string, appPath: string, launcher: Launcher)

  /** A spawned process's exit status; `None` stands for `null` (killed by a
      signal). */
  type ExitStatus = Option<nat>

  const DefaultProjectDir := "."
  const BuildDirName := "aws-web-pub.out"
  const OutputDirName := "cdk.out"

  const BootstrapArgs: seq<string> := ["bootstrap"]
  const DeployArgs: seq<string> := ["deploy", "--require-approval", "never"]
  const DestroyArgs: seq<string> := ["destroy", "--force"]

  /** The four `--context` settings, in their fixed order. */
  function ContextEntries(projectDir: string): seq<string>
  {
    [ "@aws-cdk/core:enableStackNameDuplicates=true",
      "aws-cdk:enableDiffNoFail=true",
      "@aws-cdk/core:stackRelativeExports=true",
      "project=" + projectDir ]
  }

  /** The `--app` command: the launcher, a space, then the app's path. */
  function AppCommand(env: Env): (r: string)
    ensures |r| > |env.appPath| && r[|r| - |env.appPath|..] == env.appPath && r[|r| - |env.appPath| - 1] == ' '
    ensures env.launcher.Node? ==> r == "node " + env.appPath
    ensures env.launcher.TsNode? ==> "ts-node --dir " + env.launcher.cwd + " " <= r
  {
    var nodeCmd := match env.launcher
      case Node => "node"
      case TsNode(cwd) => "ts-node --dir " + cwd;
    nodeCmd + " " + env.appPath
  }

  function BuildDir(env: Env, projectDir: string): string
  {
    env.resolve([projectDir, BuildDirName])
  }

  function OutputDir(env: Env, projectDir: string): string
  {
    env.resolve([BuildDir(env, projectDir), OutputDirName])
  }

  /** `cdkArgs` for an already resolved project directory. */
  function CdkArgs(env: Env, projectDir: string, profile: Option<string>, args: seq<string>): (r: seq<string>)
    ensures var k := if Present(profile) then 2 else 0;
      && |r| == k + 12 + |args|
      && (Present(profile) ==> r[..2] == ["--profile", profile.value])
      && r[k] == "--output" && r[k + 1] == OutputDir(env, projectDir)
      && (forall i | 0 <= i < 4 :: r[k + 2 + 2 * i] == "--context" && r[k + 3 + 2 * i] == ContextEntries(projectDir)[i])
      && r[k + 9] == "project=" + projectDir
      && r[k + 10] == "--app" && r[k + 11] == AppCommand(env)
      && r[k + 12..] == args
    ensures "--profile" !in args && "--profile" !in ContextEntries(projectDir)
            && OutputDir(env, projectDir) != "--profile" && AppCommand(env) != "--profile" ==>
      ("--profile" in r <==> Present(profile))
  {
    var profileArgs := if Present(profile) then ["--profile", profile.value] else [];
    var ctx := ContextEntries(projectDir);
    var contextArgs := ["--context", ctx[0], "--context", ctx[1], "--context", ctx[2], "--context", ctx[3]];
    profileArgs + ["--output", OutputDir(env, projectDir)] + contextArgs + ["--app", AppCommand(env)] + args
  }

  /** One `spawnSync` call: program, argument vector and working directory. */
  datatype Spawn = Spawn(program: string, argv: seq<string>, cwd: string)

  /** `execCdk`'s process: `npx --no-install cdk …` in the build directory. */
  function CdkSpawn(env: Env, projectDir: string, profile: Option<string>, args: seq<string>): (s: Spawn)
    ensures s.program == "npx"
    ensures |s.argv| >= 2 && s.argv[..2] == ["--no-install", "cdk"]
    ensures s.argv[2..] == CdkArgs(env, env.resolve([projectDir]), profile, args)
    ensures s.cwd == BuildDir(env, env.resolve([projectDir]))
  {
    var dir := env.resolve([projectDir]);
    Spawn("npx", ["--no-install", "cdk"] + CdkArgs(env, dir, profile, args), BuildDir(env, dir))
  }

  /** `${status}` for an exit status. */
  function StatusText(s: ExitStatus): string
  {
    match s
    case None => "null"
    case Some(n) => NatToString(n)
  }

  function FailureMessage(s: ExitStatus): string
  {
    "CDK failed with status: " + StatusText(s)
  }

  /** `execCdk`'s verdict on an exit status. */
  function CheckStatus(s: ExitStatus): (r: Result<()>)
    ensures r.Ok? <==> s == Some(0)
    ensures r.Err? ==> r.error == "CDK failed with status: " + StatusText(s)
  {
    if s == Some(0) then Ok(()) else Err(FailureMessage(s))
  }

  /** Failure messages tell the statuses apart, `null` included. */
  lemma StatusMessagesDistinct(s: ExitStatus, t: ExitStatus)
    requires CheckStatus(s).Err? && CheckStatus(t).Err?
    requires CheckStatus(s).error == CheckStatus(t).error
    ensures s == t
  {
    var prefix := "CDK failed with status: ";
    assert StatusText(s) == CheckStatus(s).error[|prefix|..];
    assert StatusText(t) == CheckStatus(t).error[|prefix|..];
    if s.Some? && t.Some? {
      NatToStringInjective(s.value, t.value);
    }
  }

  /** The commands whose processes were spawned, in order, and the status of
      the one that failed, if any. */
  datatype Run = Run(spawned: seq<seq<string>>, failed: Option<ExitStatus>)
  {
    /** The command's verdict: the failure `execCdk` throws, or success. */
    function Outcome(): Result<()>
    {
      if failed.Some? then Err(FailureMessage(failed.value)) else Ok(())
    }
  }

  /** Runs `cmds[from..]` one `execCdk` at a time, stopping at the first
      failure, which is thrown out of the command. `exitOf(i)` is the status
      the `i`-th process would report. */
  function RunAll(cmds: seq<seq<string>>, exitOf: nat -> ExitStatus, from: nat): (r: Run)
    requires from <= |cmds|
    ensures from < |cmds| ==> 0 < |r.spawned|
    ensures from + |r.spawned| <= |cmds|
    ensures r.spawned == cmds[from..from + |r.spawned|]
    ensures forall i | from <= i < from + |r.spawned| - 1 :: exitOf(i) == Some(0)
    ensures r.failed.None? <==> forall i | from <= i < |cmds| :: exitOf(i) == Some(0)
    ensures r.failed.None? ==> from + |r.spawned| == |cmds|
    ensures r.failed.Some? ==> r.failed.value == exitOf(from + |r.spawned| - 1)
    decreases |cmds| - from
  {
    if from == |cmds| then Run([], None)
    else if exitOf(from) != Some(0) then Run([cmds[from]], Some(exitOf(from)))
    else
      var rest := RunAll(cmds, exitOf, from + 1);
      Run([cmds[from]] + rest.spawned, rest.failed)
  }

  /** The processes of a run. */
  function Spawns(env: Env, projectDir: string, profile: Option<string>, r: Run): seq<Spawn>
  {
    seq(|r.spawned|, i requires 0 <= i < |r.spawned| => CdkSpawn(env, projectDir, profile, r.spawned[i]))
  }

  /** `deploy [projectDir]` (alias `publish`): bootstrap, then deploy without
      approval prompts; deploy only runs when bootstrap exits 0. */
  function Publish(exitOf: nat -> ExitStatus): (r: Run)
    ensures 1 <= |r.spawned| <= 2 && r.spawned[0] == BootstrapArgs
    ensures |r.spawned| == 2 <==> exitOf(0) == Some(0)
    ensures |r.spawned| == 2 ==> r.spawned[1] == DeployArgs
    ensures r.Outcome().Ok? <==> exitOf(0) == Some(0) && exitOf(1) == Some(0)
    ensures exitOf(0) != Some(0) ==> r.Outcome() == Err(FailureMessage(exitOf(0)))
    ensures exitOf(0) == Some(0) && exitOf(1) != Some(0) ==> r.Outcome() == Err(FailureMessage(exitOf(1)))
  {
    RunAll([BootstrapArgs, DeployArgs], exitOf, 0)
  }

  /** `destroy [projectDir]` (alias `unpublish`): a single forced destroy. */
  function Unpublish(exitOf: nat -> ExitStatus): (r: Run)
    ensures r.spawned == [DestroyArgs]
    ensures r.Outcome() == CheckStatus(exitOf(0))
  {
    RunAll([DestroyArgs], exitOf, 0)
  }

  /** Both commands spawn `npx --no-install cdk` for the project directory
      argument, `.` when it is omitted, with the command's own arguments last. */
  lemma CommandArgv(env: Env, projectDir: Option<string>, profile: Option<string>, r: Run, i: nat)
    requires i < |r.spawned|
    ensures var s := Spawns(env, projectDir.GetOr(DefaultProjectDir), profile, r)[i];
      && s.program == "npx"
      && s.argv[..2] == ["--no-install", "cdk"]
      && s.argv[|s.argv| - |r.spawned[i]|..] == r.spawned[i]
      && s.cwd == BuildDir(env, env.resolve([projectDir.GetOr(DefaultProjectDir)]))
  {
    var dir := projectDir.GetOr(DefaultProjectDir);
    var cmd := r.spawned[i];
    var s := CdkSpawn(env, dir, profile, cmd);
    assert Spawns(env, dir, profile, r)[i] == s;
    var args := CdkArgs(env, env.resolve([dir]), profile, cmd);
    assert s.argv[|s.argv| - |cmd|..] == args[|args| - |cmd|..];
  }
}

=== FILE: cloudfront_invalidator.dfy ===
/** The custom-resource handler of src/lambda/cloudFrontInvalidator/index.js.
    On `Create` and `Update` it invalidates every path of the distribution; on every
    invocation it reports the outcome to CloudFormation with one HTTP PUT of
    a JSON body to the pre-signed response URL. The invalidation's outcome,
    the clock and the PUT's result are inputs. */
module CloudFrontInvalidator {
  import opened Results
  import opened Strings
  import opened JsonText

  datatype ResourceProperties = ResourceProperties(distributionId: Option<string>)

  /** The fields of a custom-resource request event the handler reads. */
  datatype Event = Event(
    requestType: string,
    resourceProperties: Option<ResourceProperties>,
    requestId: string,
    stackId: string,
    logicalResourceId: string,
    responseUrl: string)

  /** How `createInvalidation` followed by `waitFor('invalidationCompleted')`
      ends. */
  datatype InvalidationOutcome = Completed | InvalidationFailed(message: string)

  /** The `createInvalidation` request. */
  datatype InvalidationParams = InvalidationParams(
    distributionId: string,
    callerReference: string,
    quantity: string,
    items: seq<string>)

  const RequiredMessage := "distributionId is required"
  const UndefinedPropertiesMessage := "Cannot read properties of undefined (reading 'distributionId')"

  /** The truthy `distributionId` of an event, if it has one. */
  function DistributionId(e: Event): Option<string>
  {
    if e.resourceProperties.Some? && e.resourceProperties.value.distributionId.Some?
       && e.resourceProperties.value.distributionId.value != ""
    then e.resourceProperties.value.distributionId
    else None
  }

  predicate Invalidates(e: Event)
  {
    e.requestType == "Create" || e.requestType == "Update"
  }

  /** What `handleCustomResourceEvent` did: the invalidations it requested and
      the distribution id it resolved to, or the message it threw. */
  datatype EventResult = EventResult(invalidations: seq<InvalidationParams>, value: Result<string>)

  /** `handleCustomResourceEvent`, with `now` standing for `Date.now()`. */
  function HandleEvent(e: Event, outcome: InvalidationOutcome, now: nat): (r: EventResult)
    ensures DistributionId(e).None? ==> r.invalidations == [] && r.value.Err?
    ensures e.resourceProperties.Some? && DistributionId(e).None? ==> r.value == Err(RequiredMessage)
    ensures e.resourceProperties.None? ==> r.value == Err(UndefinedPropertiesMessage)
    ensures |r.invalidations| == (if DistributionId(e).Some? && Invalidates(e) then 1 else 0)
    ensures forall p | p in r.invalidations ::
      p.distributionId == DistributionId(e).value && p.quantity == "1" && p.items == ["/*"]
      && (forall i | 0 <= i < |p.callerReference| :: '0' <= p.callerReference[i] <= '9')
      && ParseDecimal(p.callerReference) == now
    ensures r.value.Ok? ==> DistributionId(e) == Some(r.value.value)
    ensures r.value.Ok? <==> DistributionId(e).Some? && (!Invalidates(e) || outcome == Completed)
    ensures r.value.Err? && DistributionId(e).Some? ==> r.value == Err(outcome.message)
  {
    if e.resourceProperties.None? then EventResult([], Err(UndefinedPropertiesMessage))
    else
      var id := e.resourceProperties.value.distributionId;
      if id.None? || id.value == "" then EventResult([], Err(RequiredMessage))
      else if Invalidates(e) then
        NatToStringRoundTrip(now);
        var params := InvalidationParams(id.value, NatToString(now), "1", ["/*"]);
        match outcome
        case Completed => EventResult([params], Ok(id.value))
        case InvalidationFailed(m) => EventResult([params], Err(m))
      else EventResult([], Ok(id.value))
  }

  /** The response body `sendResponse` builds; an `undefined`
      `PhysicalResourceId` is `None`. */
  datatype ResponseBody = ResponseBody(
    status: string,
    reason: string,
    requestId: string,
    stackId: string,
    logicalResourceId: string,
    physicalResourceId: Option<string>)

  /** The body `handler` sends: success with the distribution id as physical
      resource id, or failure with the thrown message and no physical id. */
  function Respond(e: Event, outcome: InvalidationOutcome, now: nat): (b: ResponseBody)
    ensures b.requestId == e.requestId && b.stackId == e.stackId && b.logicalResourceId == e.logicalResourceId
    ensures b.status == "SUCCESS" || b.status == "FAILED"
    ensures b.status == "SUCCESS" <==> DistributionId(e).Some? && (!Invalidates(e) || outcome == Completed)
    ensures b.status == "SUCCESS" ==> b.reason == "" && b.physicalResourceId == DistributionId(e)
    ensures b.status == "FAILED" ==> b.physicalResourceId.None?
    ensures e.resourceProperties.Some? && DistributionId(e).None? ==> b.status == "FAILED" && b.reason == RequiredMessage
    ensures DistributionId(e).Some? && Invalidates(e) && outcome.InvalidationFailed? ==> b.reason == outcome.message
  {
    var r := HandleEvent(e, outcome, now);
    match r.value
    case Ok(id) => ResponseBody("SUCCESS", "", e.requestId, e.stackId, e.logicalResourceId, Some(id))
    case Err(m) => ResponseBody("FAILED", m, e.requestId, e.stackId, e.logicalResourceId, None)
  }

  /** The members of the body in the order `JSON.stringify` writes them; an
      `undefined` value is left out. */
  function Members(b: ResponseBody): seq<(string, string)>
  {
    [("Status", b.status), ("Reason", b.reason), ("RequestId", b.requestId),
     ("StackId", b.stackId), ("LogicalResourceId", b.logicalResourceId)]
    + (if b.physicalResourceId.Some? then [("PhysicalResourceId", b.physicalResourceId.value)] else [])
  }

  /** `JSON.stringify(body)`: an object literal of the members, in order. */
  function Serialize(b: ResponseBody): (r: string)
    ensures |r| >= 2 && r[0] == '{' && r[|r| - 1] == '}'
  {
    "{" + Join(MemberTexts(Members(b)), ",") + "}"
  }

  /** The text reads back, as a JSON object of string members, to exactly
      the body's members in order. */
  lemma SerializeReadsBack(b: ResponseBody)
    ensures ReadObject(Serialize(b)) == Some(Members(b))
  {
    ReadObjectOfMembers(Members(b));
  }

  /** Each member's value reads back from its JSON literal, and the physical
      resource id is present exactly when the body has one. */
  lemma MembersFaithful(b: ResponseBody)
    ensures |Members(b)| == (if b.physicalResourceId.Some? then 6 else 5)
    ensures forall i | 0 <= i < |Members(b)| :: Unquote(Quote(Members(b)[i].1)) == Some(Members(b)[i].1)
    ensures Members(b)[0] == ("Status", b.status) && Members(b)[1] == ("Reason", b.reason)
  {
    forall i | 0 <= i < |Members(b)| ensures Unquote(Quote(Members(b)[i].1)) == Some(Members(b)[i].1) {
      QuoteRoundTrip(Members(b)[i].1);
    }
  }

  /** The member names are ASCII. */
  lemma KeysAscii(b: ResponseBody)
    ensures forall i | 0 <= i < |Members(b)| :: Ascii(Members(b)[i].0)
  {
  }

  /** The text is ASCII exactly when every member value is: the member names,
      the quotes and the punctuation are ASCII, and quoting keeps every other
      character as it is. */
  lemma SerializeAscii(b: ResponseBody)
    ensures Ascii(Serialize(b)) <==> forall i | 0 <= i < |Members(b)| :: Ascii(Members(b)[i].1)
  {
    var texts := MemberTexts(Members(b));
    var joined := Join(texts, ",");
    assert Serialize(b) == "{" + joined + "}";
    assert Ascii(",") && Ascii("{") && Ascii("}");
    KeysAscii(b);
    MemberTextsAscii(Members(b));
    JoinAscii(texts, ",");
    AsciiConcat("{", joined);
    AsciiConcat("{" + joined, "}");
  }

  lemma MemberTextsAscii(ms: seq<(string, string)>)
    requires forall i | 0 <= i < |ms| :: Ascii(ms[i].0)
    ensures (forall i | 0 <= i < |ms| :: Ascii(MemberTexts(ms)[i])) <==> (forall i | 0 <= i < |ms| :: Ascii(ms[i].1))
  {
    forall i | 0 <= i < |ms| ensures Ascii(MemberTexts(ms)[i]) <==> Ascii(ms[i].1) {
      MemberAscii(ms[i].0, ms[i].1);
    }
  }

  const ContentType := "application/json; charset=UTF-8"

  datatype HttpRequest = HttpRequest(
    verb: string,
    url: string,
    contentType: string,
    contentLength: nat,
    body: string)

  /** The PUT as written: `Content-Length` is `responseBody.length`, a count of
      UTF-16 code units. */
  function PutRequestAsWritten(url: string, b: ResponseBody): (r: HttpRequest)
    ensures r.body == Serialize(b) && r.verb == "PUT" && r.url == url && r.contentType == ContentType
    ensures r.contentLength == JsLength(r.body)
  {
    var body := Serialize(b);
    HttpRequest("PUT", url, ContentType, JsLength(body), body)
  }

  /** The PUT with `Content-Length` equal to the number of bytes written. */
  function PutRequest(url: string, b: ResponseBody): (r: HttpRequest)
    ensures r.body == Serialize(b) && r.verb == "PUT" && r.url == url && r.contentType == ContentType
    ensures r.contentLength == Utf8Length(r.body)
  {
    var body := Serialize(b);
    HttpRequest("PUT", url, ContentType, Utf8Length(body), body)
  }

  /** The two agree on ASCII bodies and only there, that is, exactly when the
      status, reason and ids are all ASCII; any other body is announced
      shorter than it is. */
  lemma ContentLengthAsWrittenShort(url: string, b: ResponseBody)
    ensures PutRequestAsWritten(url, b).contentLength <= PutRequest(url, b).contentLength
    ensures PutRequestAsWritten(url, b) == PutRequest(url, b) <==> Ascii(Serialize(b))
    ensures PutRequestAsWritten(url, b) == PutRequest(url, b) <==>
      forall i | 0 <= i < |Members(b)| :: Ascii(Members(b)[i].1)
  {
    Utf8CoversJsLength(Serialize(b));
    SerializeAscii(b);
  }

  /** A failure reason with one accented letter already breaks the header. */
  lemma NonAsciiReasonUndercounts()
    ensures var s := "é";
      JsLength(s) == 1 && Utf8Length(s) == 2
  {
  }

  /** How the PUT ended: an HTTP status, or a request error. */
  datatype PutResult = HttpStatus(code: int) | RequestError(message: string)

  /** Why `urlRequest` rejected. */
  datatype Rejection = StatusRejected(statusCode: int) | RequestFailed(message: string)

  /** `urlRequest`'s verdict: success iff the status is 2xx. */
  function Settle(p: PutResult): (r: Option<Rejection>)
    ensures r.None? <==> p.HttpStatus? && 200 <= p.code < 300
    ensures p.HttpStatus? && r.Some? ==> r.value == StatusRejected(p.code)
  {
    match p
    case HttpStatus(code) => if code < 200 || code >= 300 then Some(StatusRejected(code)) else None
    case RequestError(m) => Some(RequestFailed(m))
  }

  /** One invocation of `handler`: the invalidations requested, the single
      PUT sent, and whether the handler's promise rejects. */
  datatype Invocation = Invocation(
    invalidations: seq<InvalidationParams>,
    response: HttpRequest,
    rejection: Option<Rejection>)

  /** `handler`, sending the corrected PUT, whose `Content-Length` is the
      body's byte count. */
  function Handler(e: Event, outcome: InvalidationOutcome, now: nat, put: PutResult): (inv: Invocation)
    ensures inv.response.url == e.responseUrl && inv.response.verb == "PUT"
    ensures inv.response.body == Serialize(Respond(e, outcome, now))
    ensures inv.response.contentType == ContentType && inv.response.contentLength == Utf8Length(inv.response.body)
    ensures |inv.invalidations| <= 1
    ensures inv.invalidations != [] <==> DistributionId(e).Some? && Invalidates(e)
    ensures inv.rejection.None? <==> put.HttpStatus? && 200 <= put.code < 300
  {
    Invocation(
      HandleEvent(e, outcome, now).invalidations,
      PutRequest(e.responseUrl, Respond(e, outcome, now)),
      Settle(put))
  }

  /** The invalidations `handler` requests are exactly those of
      `handleCustomResourceEvent`: at most one batch, for the event's
      distribution, covering every path, stamped with the clock. Its promise
      rejects exactly as `urlRequest` settles the PUT. */
  lemma HandlerComposes(e: Event, outcome: InvalidationOutcome, now: nat, put: PutResult)
    ensures Handler(e, outcome, now, put).invalidations == HandleEvent(e, outcome, now).invalidations
    ensures forall p | p in Handler(e, outcome, now, put).invalidations ::
      DistributionId(e) == Some(p.distributionId) && p.quantity == "1" && p.items == ["/*"]
      && ParseDecimal(p.callerReference) == now
    ensures Handler(e, outcome, now, put).rejection == Settle(put)
  {
    var handled := HandleEvent(e, outcome, now);
    assert Handler(e, outcome, now, put).invalidations == handled.invalidations;
  }
}

=== FILE: hosted_zone_lookup.dfy ===
/** The hosted-zone resolver of src/lib/HostedZoneLookup.ts: the zone name a
    domain belongs to, and a memo cache so that each zone is looked up once.
    The external `HostedZone.fromLookup` call is modelled as an entry appended
    to a lookup log; the handle it returns records which entry made it. */
module HostedZoneLookup {
  import opened Results
  import opened Strings

  /** `DomainInfo`: a domain name and an optional explicit zone. */
  datatype DomainInfo = DomainInfo(name: string, dnsZoneName: Option<string>)

  /** The construct `HostedZone.fromLookup` returned on the `lookup`-th external
      call, for zone `zoneName`. */
  datatype ZoneHandle = ZoneHandle(lookup: nat, zoneName: string)

  /** The resolver's state: the `zones` record and the log of external lookups. */
  datatype Lookup = Lookup(zones: map<string, ZoneHandle>, log: seq<string>)

  const Empty := Lookup(map[], [])

  /** The cache and the log agree: every cached handle names its own key and the
      log entry that produced it, and every log entry produced the handle cached
      for it (so no zone was looked up twice). */
  ghost predicate Valid(st: Lookup)
  {
    && (forall k | k in st.zones ::
          st.zones[k].zoneName == k && st.zones[k].lookup < |st.log| && st.log[st.zones[k].lookup] == k)
    && (forall i | 0 <= i < |st.log| :: st.log[i] in st.zones && st.zones[st.log[i]].lookup == i)
  }

  lemma EmptyValid()
    ensures Valid(Empty)
  {
  }

  /** `getHostedZoneName`: an explicit, non-empty `dnsZoneName` wins; otherwise
      the part of `name` after its first `.`, which is the whole name when it
      has no `.` (`indexOf` gives -1 and -1 + 1 = 0). */
  function ZoneName(d: DomainInfo): (r: string)
    ensures d.dnsZoneName.Some? && d.dnsZoneName.value != "" ==> r == d.dnsZoneName.value
    ensures (d.dnsZoneName.None? || d.dnsZoneName.value == "") && '.' !in d.name ==> r == d.name
    ensures (d.dnsZoneName.None? || d.dnsZoneName.value == "") && '.' in d.name ==>
      exists k :: 0 <= k < |d.name| && d.name[k] == '.' && '.' !in d.name[..k] && r == d.name[k + 1..]
  {
    if d.dnsZoneName.Some? && d.dnsZoneName.value != "" then d.dnsZoneName.value
    else d.name[IndexOf(d.name, '.') + 1..]
  }

  /** Only one label is removed: the derived zone is what follows the first
      label, even when that leaves several labels. */
  lemma ZoneNameStripsOneLabel(first: string, rest: string)
    requires '.' !in first
    ensures ZoneName(DomainInfo(first + "." + rest, None)) == rest
  {
    var name := first + "." + rest;
    assert name[|first|] == '.';
    assert name[..|first|] == first;
    assert name[|first| + 1..] == rest;
  }

  /** `getHostedZone`: the cached handle for the domain's zone, or a new external
      lookup recorded in the cache and the log on a miss. */
  function GetHostedZone(st: Lookup, d: DomainInfo): (r: (Lookup, ZoneHandle))
    requires Valid(st)
    ensures Valid(r.0)
    ensures r.1.zoneName == ZoneName(d)
    ensures ZoneName(d) in r.0.zones && r.0.zones[ZoneName(d)] == r.1
    ensures r.0.zones.Keys == st.zones.Keys + {ZoneName(d)}
    ensures ZoneName(d) in st.zones ==> r == (st, st.zones[ZoneName(d)])
    ensures ZoneName(d) !in st.zones ==> r.0.log == st.log + [ZoneName(d)]
    ensures forall k | k in st.zones :: k in r.0.zones && r.0.zones[k] == st.zones[k]
  {
    var name := ZoneName(d);
    if name in st.zones then (st, st.zones[name])
    else
      InsertValid(st, name);
      (Insert(st, name), ZoneHandle(|st.log|, name))
  }

  /** The state after a miss: the zone cached under a handle naming the next
      log entry, and the log extended by that zone. */
  function Insert(st: Lookup, name: string): Lookup
  {
    Lookup(st.zones[name := ZoneHandle(|st.log|, name)], st.log + [name])
  }

  lemma InsertValid(st: Lookup, name: string)
    requires Valid(st) && name !in st.zones
    ensures Valid(Insert(st, name))
    ensures name in Insert(st, name).zones && Insert(st, name).zones[name] == ZoneHandle(|st.log|, name)
    ensures Insert(st, name).zones.Keys == st.zones.Keys + {name}
    ensures Insert(st, name).log == st.log + [name]
    ensures forall k | k in st.zones :: k in Insert(st, name).zones && Insert(st, name).zones[k] == st.zones[k]
  {
    var st' := Insert(st, name);
    forall k | k in st'.zones
      ensures st'.zones[k].zoneName == k && st'.zones[k].lookup < |st'.log| && st'.log[st'.zones[k].lookup] == k
    {
      if k != name {
        assert st'.log[st.zones[k].lookup] == st.log[st.zones[k].lookup];
      }
    }
    forall i | 0 <= i < |st'.log| ensures st'.log[i] in st'.zones && st'.zones[st'.log[i]].lookup == i {
      if i < |st.log| {
        assert st'.log[i] == st.log[i];
      }
    }
  }

  /** Asking twice for the same zone costs one lookup: the second call changes
      nothing and returns the first call's handle, even for a different domain
      that derives the same zone. */
  lemma RepeatedLookupIsCached(st: Lookup, d: DomainInfo, e: DomainInfo)
    requires Valid(st)
    requires ZoneName(d) == ZoneName(e)
    ensures var (st1, h1) := GetHostedZone(st, d);
      GetHostedZone(st1, e) == (st1, h1)
  {
  }

  /** The zones a sequence of domains resolves to. */
  function ZoneNames(ds: seq<DomainInfo>): set<string>
    decreases |ds|
  {
    if |ds| == 0 then {} else {ZoneName(ds[0])} + ZoneNames(ds[1..])
  }

  /** A zone is among the resolved zones exactly when some domain derives it. */
  lemma {:induction false} ZoneNamesMembers(ds: seq<DomainInfo>, z: string)
    ensures z in ZoneNames(ds) <==> exists i :: 0 <= i < |ds| && ZoneName(ds[i]) == z
    decreases |ds|
  {
    if |ds| > 0 {
      ZoneNamesMembers(ds[1..], z);
      if exists i :: 0 <= i < |ds| && ZoneName(ds[i]) == z {
        var i :| 0 <= i < |ds| && ZoneName(ds[i]) == z;
        if i > 0 { assert ds[1..][i - 1] == ds[i]; }
      }
      if exists i :: 0 <= i < |ds| - 1 && ZoneName(ds[1..][i]) == z {
        var i :| 0 <= i < |ds| - 1 && ZoneName(ds[1..][i]) == z;
        assert ds[i + 1] == ds[1..][i];
      }
    }
  }

  /** Resolving each domain in turn, sharing one cache: the handles, in order. */
  function GetHostedZones(st: Lookup, ds: seq<DomainInfo>): (r: (Lookup, seq<ZoneHandle>))
    requires Valid(st)
    ensures Valid(r.0)
    ensures |r.1| == |ds|
    ensures forall i | 0 <= i < |ds| :: ZoneName(ds[i]) in r.0.zones && r.1[i] == r.0.zones[ZoneName(ds[i])]
    ensures forall i | 0 <= i < |ds| :: r.1[i].zoneName == ZoneName(ds[i])
    ensures forall k | k in st.zones :: k in r.0.zones && r.0.zones[k] == st.zones[k]
    ensures r.0.zones.Keys == st.zones.Keys + ZoneNames(ds)
    decreases |ds|
  {
    if |ds| == 0 then (st, [])
    else
      var first := GetHostedZone(st, ds[0]);
      var rest := GetHostedZones(first.0, ds[1..]);
      ResolveConsHandles(st, ds, first, rest);
      ResolveConsKeeps(st, ds, first, rest);
      ResolveConsKeys(st.zones.Keys, first.0.zones.Keys, rest.0.zones.Keys, ds);
      (rest.0, [first.1] + rest.1)
  }

  /** One step of `GetHostedZones`, for the handles: the first domain's handle,
      then the rest's. */
  lemma ResolveConsHandles(st: Lookup, ds: seq<DomainInfo>, first: (Lookup, ZoneHandle), rest: (Lookup, seq<ZoneHandle>))
    requires Valid(st) && |ds| > 0
    requires first == GetHostedZone(st, ds[0])
    requires |rest.1| == |ds| - 1
    requires forall i | 0 <= i < |ds| - 1 :: ZoneName(ds[1..][i]) in rest.0.zones && rest.1[i] == rest.0.zones[ZoneName(ds[1..][i])]
    requires forall k | k in first.0.zones :: k in rest.0.zones && rest.0.zones[k] == first.0.zones[k]
    ensures forall i | 0 <= i < |ds| :: ZoneName(ds[i]) in rest.0.zones && ([first.1] + rest.1)[i] == rest.0.zones[ZoneName(ds[i])]
  {
    forall i | 0 <= i < |ds|
      ensures ZoneName(ds[i]) in rest.0.zones && ([first.1] + rest.1)[i] == rest.0.zones[ZoneName(ds[i])]
    {
      if i > 0 { assert ds[i] == ds[1..][i - 1]; }
    }
  }

  /** One step of `GetHostedZones`, for the cache: entries cached before the
      first lookup survive the rest. */
  lemma ResolveConsKeeps(st: Lookup, ds: seq<DomainInfo>, first: (Lookup, ZoneHandle), rest: (Lookup, seq<ZoneHandle>))
    requires Valid(st) && |ds| > 0
    requires first == GetHostedZone(st, ds[0])
    requires forall k | k in first.0.zones :: k in rest.0.zones && rest.0.zones[k] == first.0.zones[k]
    ensures forall k | k in st.zones :: k in rest.0.zones && rest.0.zones[k] == st.zones[k]
  {
  }

  /** One step of `GetHostedZones`, for the keys: they grow by the zones
      resolved. */
  lemma ResolveConsKeys(before: set<string>, first: set<string>, rest: set<string>, ds: seq<DomainInfo>)
    requires |ds| > 0
    requires first == before + {ZoneName(ds[0])}
    requires rest == first + ZoneNames(ds[1..])
    ensures rest == before + ZoneNames(ds)
  {
  }

  /** A stack's lookups: whatever zones of the domains were looked up first,
      the primary's zone and then the others' zones make up all the zones. */
  lemma ZoneKeysChain(certified: set<string>, recorded: set<string>, redirected: set<string>, ds: seq<DomainInfo>)
    requires |ds| > 0
    requires certified <= ZoneNames(ds)
    requires recorded == certified + {ZoneName(ds[0])}
    requires redirected == recorded + ZoneNames(ds[1..])
    ensures redirected == ZoneNames(ds)
  {
  }

  /** Two domains with the same derived zone share one handle. */
  lemma SharedZoneSharedHandle(st: Lookup, ds: seq<DomainInfo>, i: nat, j: nat)
    requires Valid(st)
    requires i < |ds| && j < |ds|
    requires ZoneName(ds[i]) == ZoneName(ds[j])
    ensures GetHostedZones(st, ds).1[i] == GetHostedZones(st, ds).1[j]
  {
  }

  /** In a valid state the log has no repeated entry, so its length is the
      number of distinct zones it holds, which is the number of cache keys. */
  lemma LogCountsZones(st: Lookup)
    requires Valid(st)
    ensures |st.log| == |st.zones.Keys|
  {
    forall i, j | 0 <= i < j < |st.log|
      ensures st.log[i] != st.log[j]
    {
      assert st.zones[st.log[i]].lookup == i;
    }
    assert (set x | x in st.log) == st.zones.Keys by {
      forall k | k in st.zones ensures k in st.log {
        assert st.log[st.zones[k].lookup] == k;
      }
    }
    DistinctElements(st.log);
  }

  /** A sequence without repeats has as many distinct elements as positions. */
  lemma {:induction false} DistinctElements(s: seq<string>)
    requires forall i, j | 0 <= i < j < |s| :: s[i] != s[j]
    ensures |set x | x in s| == |s|
    decreases |s|
  {
    if |s| > 0 {
      var init := s[..|s| - 1];
      DistinctElements(init);
      assert (set x | x in s) == (set x | x in init) + {s[|s| - 1]};
      forall i | 0 <= i < |init|
        ensures init[i] != s[|s| - 1]
      {
        assert init[i] == s[i];
      }
    }
  }

  /** Over any sequence of requests from a fresh resolver, the number of
      external lookups equals the number of distinct zone names requested. */
  lemma LookupsEqualDistinctZones(ds: seq<DomainInfo>)
    ensures Valid(GetHostedZones(Empty, ds).0)
    ensures |GetHostedZones(Empty, ds).0.log| == |ZoneNames(ds)|
  {
    var st := GetHostedZones(Empty, ds).0;
    LogCountsZones(st);
  }

  /** The assignments `record[keys[i]] = values[i]` performed in order: a
      later key overwrites an earlier equal one. */
  function Record(keys: seq<string>, values: seq<ZoneHandle>): (m: map<string, ZoneHandle>)
    requires |keys| == |values|
    decreases |keys|
  {
    if |keys| == 0 then map[]
    else Record(keys[..|keys| - 1], values[..|values| - 1])[keys[|keys| - 1] := values[|values| - 1]]
  }

  /** The record has one key per distinct key assigned. */
  lemma {:induction false} RecordKeys(keys: seq<string>, values: seq<ZoneHandle>)
    requires |keys| == |values|
    ensures Record(keys, values).Keys == set k | k in keys
    decreases |keys|
  {
    if |keys| > 0 {
      var n := |keys| - 1;
      RecordKeys(keys[..n], values[..n]);
      assert keys == keys[..n] + [keys[n]];
    }
  }

  /** Each key of the record holds the value of the last assignment to it. */
  lemma {:induction false} RecordLastWins(keys: seq<string>, values: seq<ZoneHandle>, i: nat)
    requires |keys| == |values| && i < |keys|
    requires forall j | i < j < |keys| :: keys[j] != keys[i]
    ensures keys[i] in Record(keys, values) && Record(keys, values)[keys[i]] == values[i]
    decreases |keys|
  {
    var n := |keys| - 1;
    if i < n {
      assert keys[..n][i] == keys[i];
      forall j | i < j < n ensures keys[..n][j] != keys[..n][i] {
        assert keys[..n][j] == keys[j];
      }
      RecordLastWins(keys[..n], values[..n], i);
    }
  }

  /** The names of a sequence of domains, in order. */
  function Names(ds: seq<DomainInfo>): (r: seq<string>)
    ensures |r| == |ds|
    ensures forall i | 0 <= i < |ds| :: r[i] == ds[i].name
  {
    seq(|ds|, i requires 0 <= i < |ds| => ds[i].name)
  }

  /** `ds[i]` is the last domain with its name, so its assignment is the one
      that stays in the record. */
  predicate LastWithName(ds: seq<DomainInfo>, i: int)
  {
    0 <= i < |ds| && forall j | i < j < |ds| :: ds[j].name != ds[i].name
  }

  /** Recording handles by domain name: the last domain with a given name
      decides the handle recorded for it. */
  lemma RecordByName(ds: seq<DomainInfo>, hs: seq<ZoneHandle>, i: nat)
    requires |hs| == |ds| && LastWithName(ds, i)
    ensures ds[i].name in Record(Names(ds), hs)
    ensures Record(Names(ds), hs)[ds[i].name] == hs[i]
  {
    RecordLastWins(Names(ds), hs, i);
  }

  /** When each handle is the cached handle of its domain's zone, the record
      maps each name to the zone of the last domain with that name. */
  lemma RecordByZone(ds: seq<DomainInfo>, hs: seq<ZoneHandle>, zones: map<string, ZoneHandle>)
    requires |hs| == |ds|
    requires forall i | 0 <= i < |ds| :: ZoneName(ds[i]) in zones && hs[i] == zones[ZoneName(ds[i])]
    ensures forall i | LastWithName(ds, i) ::
      ds[i].name in Record(Names(ds), hs) && Record(Names(ds), hs)[ds[i].name] == zones[ZoneName(ds[i])]
  {
    forall i | LastWithName(ds, i) {
      RecordByName(ds, hs, i);
    }
  }

  /** The zones record of src/lib/StaticWebStack.ts: for each domain in turn,
      `zones[d.name] = getHostedZone(d)`. The lookups and the assignments
      interleave in the source; neither affects the other, so the record is
      built from the resolved handles in the same order. */
  function ZonesByName(st: Lookup, ds: seq<DomainInfo>): (r: (Lookup, map<string, ZoneHandle>))
    requires Valid(st)
    ensures Valid(r.0)
    ensures r.1.Keys == set n | n in Names(ds)
    ensures r.0.zones.Keys == st.zones.Keys + ZoneNames(ds)
    ensures forall k | k in st.zones :: k in r.0.zones && r.0.zones[k] == st.zones[k]
    ensures forall i | LastWithName(ds, i) ::
      ZoneName(ds[i]) in r.0.zones && ds[i].name in r.1 && r.1[ds[i].name] == r.0.zones[ZoneName(ds[i])]
  {
    var resolved := GetHostedZones(st, ds);
    RecordKeys(Names(ds), resolved.1);
    RecordByZone(ds, resolved.1, resolved.0.zones);
    (resolved.0, Record(Names(ds), resolved.1))
  }
}

=== FILE: json.dfy ===
/** A parsed JSON document and the JavaScript rules the validator applies to it:
    truthiness, property reads, and `typeof … === 'string'`. */
module Json {
  import opened Results

  /** A value `JSON.parse` can produce. Numbers are real (JSON never yields NaN);
      an object maps each key to its last occurrence in the text. */
  datatype Json =
    | JNull
    | JBool(b: bool)
    | JNum(n: real)
    | JStr(s: string)
    | JArr(items: seq<Json>)
    | JObj(fields: map<string, Json>)

  /** JavaScript truthiness: `null`, `false`, `0`, `-0` and `""` are falsy;
      every array and object, even an empty one, is truthy. */
  predicate Truthy(j: Json)
  {
    match j
    case JNull => false
    case JBool(b) => b
    case JNum(n) => n != 0.0
    case JStr(s) => s != ""
    case JArr(_) => true
    case JObj(_) => true
  }

  /** The falsy JSON values are exactly `null`, `false`, `0` and `""`; every
      other value, including `[]` and `{}`, is truthy. */
  lemma FalsyValues(j: Json)
    ensures !Truthy(j) <==> j == JNull || j == JBool(false) || j == JNum(0.0) || j == JStr("")
  {
  }

  /** `j.key` on a value that is not `null`: the own property of an object, and
      `undefined` for everything else (a number, string, boolean or array has no
      property with the names this configuration uses). */
  function Prop(j: Json, key: string): (r: Option<Json>)
    ensures r.Some? <==> j.JObj? && key in j.fields
    ensures r.Some? ==> r.value == j.fields[key]
  {
    if j.JObj? && key in j.fields then Some(j.fields[key]) else None
  }

  /** Truthiness of a property read, where `undefined` is falsy. */
  predicate TruthyProp(j: Json, key: string)
  {
    var v := Prop(j, key);
    v.Some? && Truthy(v.value)
  }

  /** `typeof j.key === 'string'`. */
  predicate StringProp(j: Json, key: string)
  {
    var v := Prop(j, key);
    v.Some? && v.value.JStr?
  }

  /** The message V8 gives the `TypeError` thrown by reading a property of `null`. */
  function NullRead(key: string): string
  {
    "Cannot read properties of null (reading '" + key + "')"
  }
}

=== FILE: json_text.dfy ===
/** `JSON.stringify` for the flat string-valued object the invalidation
    handler sends: the quoting of one string (ECMA-262, QuoteJSONString), its
    inverse, and the lengths a body has in UTF-16 code units and in UTF-8
    bytes. */
module JsonText {
  import opened Results
  import opened Strings

  /** A lower-case hexadecimal digit. */
  function HexDigit(d: nat): (c: char)
    requires d < 16
  {
    if d < 10 then ('0' as int + d) as char else ('a' as int + d - 10) as char
  }

  /** The value of a hexadecimal digit of either case. */
  function HexValue(c: char): (r: Option<nat>)
    ensures r.Some? ==> r.value < 16
  {
    if '0' <= c <= '9' then Some((c as int) - ('0' as int))
    else if 'a' <= c <= 'f' then Some((c as int) - ('a' as int) + 10)
    else if 'A' <= c <= 'F' then Some((c as int) - ('A' as int) + 10)
    else None
  }

  lemma HexValueOfDigit(d: nat)
    requires d < 16
    ensures HexValue(HexDigit(d)) == Some(d)
  {
  }

  /** One character as `JSON.stringify` writes it inside a string literal:
      the two-character escapes for quote, backslash, backspace, tab, line
      feed, form feed and carriage return; `\u00xx` for the other control
      characters; every other character as itself. */
  function EscapeChar(c: char): (r: string)
    ensures |r| > 0
  {
    if c == '"' then "\\\""
    else if c == '\\' then "\\\\"
    else if c as int == 0x08 then "\\b"
    else if c == '\t' then "\\t"
    else if c == '\n' then "\\n"
    else if c as int == 0x0C then "\\f"
    else if c == '\r' then "\\r"
    else if (c as int) < 0x20 then "\\u00" + [HexDigit((c as int) / 16), HexDigit((c as int) % 16)]
    else [c]
  }

  function Escape(s: string): (r: string)
  {
    if |s| == 0 then "" else EscapeChar(s[0]) + Escape(s[1..])
  }

  /** A string value as a JSON literal. */
  function Quote(s: string): (r: string)
    ensures |r| >= 2 && r[0] == '"' && r[|r| - 1] == '"'
  {
    "\"" + Escape(s) + "\""
  }

  /** The character a two-character escape `\e` stands for. */
  function SimpleEscape(e: char): Option<char>
  {
    if e == '"' then Some('"')
    else if e == '\\' then Some('\\')
    else if e == '/' then Some('/')
    else if e == 'b' then Some(0x08 as char)
    else if e == 't' then Some('\t')
    else if e == 'n' then Some('\n')
    else if e == 'f' then Some(0x0C as char)
    else if e == 'r' then Some('\r')
    else None
  }

  /** The character the four hexadecimal digits of a `\uXXXX` escape stand
      for; a surrogate code unit on its own is not a character. */
  function UnicodeEscape(h0: char, h1: char, h2: char, h3: char): Option<char>
  {
    match (HexValue(h0), HexValue(h1), HexValue(h2), HexValue(h3))
    case (Some(a), Some(b), Some(c), Some(d)) =>
      var v := a * 4096 + b * 256 + c * 16 + d;
      if 0xD800 <= v < 0xE000 then None else Some(v as char)
    case _ => None
  }

  /** Reads the first character of the body of a JSON string literal: the
      character and how many characters of text it took; `None` for a raw
      quote or control character, or a malformed escape. */
  function UnescapeStep(s: string): (r: Option<(char, nat)>)
    requires |s| > 0
    ensures r.Some? ==> 1 <= r.value.1 <= |s|
  {
    if s[0] != '\\' then
      if s[0] == '"' || (s[0] as int) < 0x20 then None else Some((s[0], 1))
    else if |s| < 2 then None
    else if s[1] == 'u' then
      if |s| < 6 then None
      else
        match UnicodeEscape(s[2], s[3], s[4], s[5])
        case Some(c) => Some((c, 6))
        case None => None
    else
      match SimpleEscape(s[1])
      case Some(c) => Some((c, 2))
      case None => None
  }

  function Prepend(c: char, r: Option<string>): Option<string>
  {
    match r
    case Some(t) => Some([c] + t)
    case None => None
  }

  /** The characters a JSON string literal's body denotes. */
  function Unescape(s: string): Option<string>
    decreases |s|
  {
    if |s| == 0 then Some("")
    else
      match UnescapeStep(s)
      case None => None
      case Some((c, n)) => Prepend(c, Unescape(s[n..]))
  }

  /** The string a JSON string literal denotes. */
  function Unquote(q: string): Option<string>
  {
    if |q| >= 2 && q[0] == '"' && q[|q| - 1] == '"' then Unescape(q[1..|q| - 1]) else None
  }

  lemma UnescapeStepOfEscapeChar(c: char, rest: string)
    ensures UnescapeStep(EscapeChar(c) + rest) == Some((c, |EscapeChar(c)|))
  {
    var s := EscapeChar(c) + rest;
    if (c as int) < 0x20 && c as int != 0x08 && c != '\t' && c != '\n' && c as int != 0x0C && c != '\r' {
      var hi, lo := (c as int) / 16, (c as int) % 16;
      assert s[0] == '\\' && s[1] == 'u' && s[2] == '0' && s[3] == '0';
      assert s[4] == HexDigit(hi) && s[5] == HexDigit(lo);
      HexValueOfDigit(hi);
      HexValueOfDigit(lo);
      assert hi * 16 + lo == c as int;
    } else if !(c == '"' || c == '\\' || (c as int) < 0x20) {
      assert s[0] == c;
    } else {
      assert s[0] == '\\';
    }
  }

  /** Quoting loses nothing: reading the escaped text back gives the string. */
  lemma {:induction false} EscapeRoundTrip(s: string)
    ensures Unescape(Escape(s)) == Some(s)
    decreases |s|
  {
    if |s| > 0 {
      var e, more := EscapeChar(s[0]), Escape(s[1..]);
      UnescapeStepOfEscapeChar(s[0], more);
      EscapeRoundTrip(s[1..]);
      assert (e + more)[|e|..] == more;
      UnescapeOfStep(e + more, s[0], |e|, s[1..]);
      assert [s[0]] + s[1..] == s;
    }
  }

  /** One character's text, then a body that unescapes. */
  lemma UnescapeOfStep(s: string, c: char, n: nat, t: string)
    requires |s| > 0 && UnescapeStep(s) == Some((c, n)) && Unescape(s[n..]) == Some(t)
    ensures Unescape(s) == Some([c] + t)
  {
  }

  lemma QuoteRoundTrip(s: string)
    ensures Unquote(Quote(s)) == Some(s)
  {
    var q := Quote(s);
    assert q[1..|q| - 1] == Escape(s);
    EscapeRoundTrip(s);
  }

  /** A member `"key":"value"` of a JSON object. */
  function Member(key: string, value: string): string
  {
    Quote(key) + ":" + Quote(value)
  }

  /** Reads the rest of a JSON string literal, after its opening quote: the
      characters it denotes and how much text it took, closing quote
      included. */
  function ReadChars(s: string): (r: Option<(string, nat)>)
    ensures r.Some? ==> 1 <= r.value.1 <= |s|
    decreases |s|
  {
    if |s| == 0 then None
    else if s[0] == '"' then Some(("", 1))
    else
      var step := UnescapeStep(s);
      if step.None? then None
      else
        var rest := ReadChars(s[step.value.1..]);
        if rest.None? then None
        else Some(([step.value.0] + rest.value.0, step.value.1 + rest.value.1))
  }

  /** Reads a JSON string literal at the start of `s`: its value and its
      length in text. */
  function ReadString(s: string): (r: Option<(string, nat)>)
    ensures r.Some? ==> 2 <= r.value.1 <= |s|
  {
    if |s| > 0 && s[0] == '"' then
      match ReadChars(s[1..])
      case None => None
      case Some((t, m)) => Some((t, m + 1))
    else None
  }

  /** Reads one member `"key":"value"` at the start of `s`: the pair and its
      length in text. */
  function ReadMember(s: string): (r: Option<((string, string), nat)>)
    ensures r.Some? ==> 1 <= r.value.1 <= |s|
  {
    match ReadString(s)
    case None => None
    case Some((k, n)) =>
      if n >= |s| || s[n] != ':' then None
      else
        match ReadString(s[n + 1..])
        case None => None
        case Some((v, m)) => Some(((k, v), n + 1 + m))
  }

  /** Reads the members of a flat object literal of string values, after the
      opening brace: members separated by commas, then the closing brace and
      nothing after it. */
  function ReadMembers(s: string): (r: Option<seq<(string, string)>>)
    ensures r.Some? ==> |r.value| > 0
    decreases |s|
  {
    match ReadMember(s)
    case None => None
    case Some((kv, n)) =>
      var rest := s[n..];
      if rest == "}" then Some([kv])
      else if |rest| > 0 && rest[0] == ',' then
        match ReadMembers(rest[1..])
        case None => None
        case Some(ms) => Some([kv] + ms)
      else None
  }

  /** Reads a flat object literal of string values. */
  function ReadObject(s: string): Option<seq<(string, string)>>
  {
    if |s| >= 2 && s[0] == '{' then
      if s[1..] == "}" then Some([]) else ReadMembers(s[1..])
    else None
  }

  /** An escaped body followed by the closing quote reads back as the string,
      whatever text comes after. */
  lemma ReadCharsOfEscape(v: string, rest: string)
    ensures ReadChars(Escape(v) + "\"" + rest) == Some((v, |Escape(v)| + 1))
  {
    EscapeRoundTrip(v);
    ReadCharsOfUnescape(Escape(v), rest, v);
  }

  /** A body that unescapes cleanly, then the closing quote: the reader stops
      at that quote, however the text goes on. */
  lemma {:induction false} ReadCharsOfUnescape(body: string, rest: string, v: string)
    requires Unescape(body) == Some(v)
    ensures ReadChars(body + "\"" + rest) == Some((v, |body| + 1))
    decreases |body|
  {
    var s := body + "\"" + rest;
    if |body| == 0 {
      assert s[0] == '"';
    } else {
      var c, n := UnescapeStep(body).value.0, UnescapeStep(body).value.1;
      var v' := Unescape(body[n..]).value;
      assert v == [c] + v';
      UnescapeStepOfPrefix(body, "\"" + rest);
      assert s == body + ("\"" + rest);
      ReadCharsOfUnescape(body[n..], rest, v');
      assert s[n..] == body[n..] + "\"" + rest;
      ReadCharsStep(s, c, n, v', |body| - n + 1);
    }
  }

  /** A step that is complete within `s` reads the same whatever follows. */
  lemma UnescapeStepOfPrefix(s: string, x: string)
    requires |s| > 0 && UnescapeStep(s).Some?
    ensures UnescapeStep(s + x) == UnescapeStep(s)
  {
    assert (s + x)[0] == s[0];
    if |s| >= 2 {
      assert (s + x)[1] == s[1];
    }
    if |s| >= 6 {
      assert (s + x)[2] == s[2] && (s + x)[3] == s[3] && (s + x)[4] == s[4] && (s + x)[5] == s[5];
    }
  }

  /** One unquoted character of text, then the rest of the literal. */
  lemma ReadCharsStep(s: string, c: char, n: nat, t: string, m: nat)
    requires |s| > 0 && s[0] != '"' && UnescapeStep(s) == Some((c, n))
    requires ReadChars(s[n..]) == Some((t, m))
    ensures ReadChars(s) == Some(([c] + t, n + m))
  {
  }

  /** A quoted string reads back as itself, taking exactly its own text. */
  lemma ReadStringOfQuote(v: string, rest: string)
    ensures ReadString(Quote(v) + rest) == Some((v, |Quote(v)|))
  {
    var s := Quote(v) + rest;
    assert s[1..] == Escape(v) + "\"" + rest;
    ReadCharsOfEscape(v, rest);
  }

  /** Each member written as `"key":"value"`. */
  function MemberTexts(ms: seq<(string, string)>): (r: seq<string>)
    ensures |r| == |ms|
    ensures forall i | 0 <= i < |ms| :: r[i] == Member(ms[i].0, ms[i].1)
  {
    seq(|ms|, i requires 0 <= i < |ms| => Member(ms[i].0, ms[i].1))
  }

  /** One member followed by more text reads back as its key and value,
      taking exactly its own text. */
  lemma ReadMemberText(key: string, value: string, rest: string)
    ensures ReadMember(Member(key, value) + rest) == Some(((key, value), |Member(key, value)|))
  {
    var q1, q2 := Quote(key), Quote(value);
    ReadStringOfQuote(key, [':'] + (q2 + rest));
    ReadStringOfQuote(value, rest);
    ReadMemberOfParts(q1, q2, rest, key, value);
    assert Member(key, value) == q1 + [':'] + q2;
  }

  /** A key literal, a colon and a value literal read back as one member. */
  lemma ReadMemberOfParts(q1: string, q2: string, rest: string, key: string, value: string)
    requires ReadString(q1 + ([':'] + (q2 + rest))) == Some((key, |q1|))
    requires ReadString(q2 + rest) == Some((value, |q2|))
    ensures ReadMember(q1 + [':'] + q2 + rest) == Some(((key, value), |q1 + [':'] + q2|))
  {
    SplitAfter(q1, ':', q2 + rest);
    Regroup(q1, ':', q2, rest);
    ReadMemberStep(q1 + ([':'] + (q2 + rest)), key, value, |q1|, |q2|);
  }

  lemma Regroup(a: string, c: char, b: string, rest: string)
    ensures a + [c] + b + rest == a + ([c] + (b + rest))
    ensures |a + [c] + b| == |a| + 1 + |b|
  {
  }

  /** Cutting `a + [c] + b` after `a`. */
  lemma SplitAfter(a: string, c: char, b: string)
    ensures (a + ([c] + b))[|a|] == c
    ensures (a + ([c] + b))[|a| + 1..] == b
    ensures (a + ([c] + b))[|a|..] == [c] + b
  {
  }

  lemma ReadMemberStep(s: string, k: string, v: string, n: nat, m: nat)
    requires ReadString(s) == Some((k, n)) && n < |s| && s[n] == ':'
    requires ReadString(s[n + 1..]) == Some((v, m))
    ensures ReadMember(s) == Some(((k, v), n + 1 + m))
  {
  }

  /** The members joined by commas and closed by a brace read back as the
      members, in order. */
  lemma {:induction false} ReadMembersOfJoin(ms: seq<(string, string)>)
    requires |ms| > 0
    ensures ReadMembers(Join(MemberTexts(ms), ",") + "}") == Some(ms)
    decreases |ms|
  {
    var texts := MemberTexts(ms);
    var k, v := ms[0].0, ms[0].1;
    var t := Member(k, v);
    if |ms| == 1 {
      assert Join(texts, ",") == t;
      ReadMemberText(k, v, "}");
      ReadMembersLast(t, (k, v));
      assert [(k, v)] == ms;
    } else {
      var joined := Join(MemberTexts(ms[1..]), ",");
      assert texts[1..] == MemberTexts(ms[1..]);
      assert Join(texts, ",") == t + [','] + joined;
      Regroup(t, ',', joined, "}");
      ReadMemberText(k, v, [','] + (joined + "}"));
      ReadMembersOfJoin(ms[1..]);
      ReadMembersNext(t, joined + "}", (k, v), ms[1..]);
      assert [(k, v)] + ms[1..] == ms;
    }
  }

  /** One member, then either the closing brace or a comma and more members. */
  lemma ReadMembersStep(s: string, kv: (string, string), n: nat)
    requires ReadMember(s) == Some((kv, n))
    ensures s[n..] == "}" ==> ReadMembers(s) == Some([kv])
    ensures |s[n..]| > 0 && s[n..][0] == ',' && ReadMembers(s[n..][1..]).Some? ==>
      ReadMembers(s) == Some([kv] + ReadMembers(s[n..][1..]).value)
  {
  }

  /** A last member, then the closing brace. */
  lemma ReadMembersLast(t: string, kv: (string, string))
    requires ReadMember(t + "}") == Some((kv, |t|))
    ensures ReadMembers(t + "}") == Some([kv])
  {
    assert (t + "}")[|t|..] == "}";
    ReadMembersStep(t + "}", kv, |t|);
  }

  /** A member, a comma, then more members. */
  lemma ReadMembersNext(t: string, more: string, kv: (string, string), ms: seq<(string, string)>)
    requires ReadMember(t + ([','] + more)) == Some((kv, |t|))
    requires ReadMembers(more) == Some(ms)
    ensures ReadMembers(t + ([','] + more)) == Some([kv] + ms)
  {
    SplitAfter(t, ',', more);
    ReadMembersStep(t + ([','] + more), kv, |t|);
  }

  /** A non-empty flat object literal reads back as its members, in order. */
  lemma ReadObjectOfMembers(ms: seq<(string, string)>)
    requires |ms| > 0
    ensures ReadObject("{" + Join(MemberTexts(ms), ",") + "}") == Some(ms)
  {
    var joined := Join(MemberTexts(ms), ",");
    assert |Member(ms[0].0, ms[0].1)| >= 2;
    assert "{" + joined + "}" == "{" + (joined + "}");
    ReadMembersOfJoin(ms);
    ReadObjectOpen(joined + "}");
  }

  /** After the opening brace, anything but the closing brace is read as
      members. */
  lemma ReadObjectOpen(body: string)
    requires |body| >= 2
    ensures ReadObject("{" + body) == ReadMembers(body)
  {
    assert ("{" + body)[1..] == body;
  }

  /** JavaScript's `length`: UTF-16 code units, two for a character outside
      the Basic Multilingual Plane. */
  function JsLength(s: string): nat
  {
    if |s| == 0 then 0 else (if (s[0] as int) >= 0x10000 then 2 else 1) + JsLength(s[1..])
  }

  function Utf8Width(c: char): nat
  {
    if (c as int) < 0x80 then 1
    else if (c as int) < 0x800 then 2
    else if (c as int) < 0x10000 then 3
    else 4
  }

  /** The number of bytes Node writes for a string body (UTF-8). */
  function Utf8Length(s: string): nat
  {
    if |s| == 0 then 0 else Utf8Width(s[0]) + Utf8Length(s[1..])
  }

  predicate Ascii(s: string)
  {
    forall i | 0 <= i < |s| :: (s[i] as int) < 0x80
  }

  /** The UTF-8 byte count never falls short of the UTF-16 length, and the two
      agree exactly on ASCII text. */
  lemma {:induction false} Utf8CoversJsLength(s: string)
    ensures Utf8Length(s) >= JsLength(s)
    ensures Utf8Length(s) == JsLength(s) <==> Ascii(s)
    decreases |s|
  {
    if |s| > 0 {
      Utf8CoversJsLength(s[1..]);
      assert Ascii(s) <==> (s[0] as int) < 0x80 && Ascii(s[1..]) by {
        if (s[0] as int) < 0x80 && Ascii(s[1..]) {
          forall i | 0 <= i < |s| ensures (s[i] as int) < 0x80 {
            if i > 0 { assert s[i] == s[1..][i - 1]; }
          }
        }
      }
    }
  }

  lemma AsciiConcat(a: string, b: string)
    ensures Ascii(a + b) <==> Ascii(a) && Ascii(b)
  {
    if Ascii(a) && Ascii(b) {
      forall i | 0 <= i < |a + b| ensures ((a + b)[i] as int) < 0x80 {
        if i >= |a| { assert (a + b)[i] == b[i - |a|]; }
      }
    }
    if Ascii(a + b) {
      forall i | 0 <= i < |a| ensures (a[i] as int) < 0x80 {
        assert (a + b)[i] == a[i];
      }
      forall i | 0 <= i < |b| ensures (b[i] as int) < 0x80 {
        assert (a + b)[|a| + i] == b[i];
      }
    }
  }

  /** An escape is ASCII exactly when the character is: escapes use only
      ASCII, and any other character is written as itself. */
  lemma EscapeCharAscii(c: char)
    ensures Ascii(EscapeChar(c)) <==> (c as int) < 0x80
  {
    var e := EscapeChar(c);
    if (c as int) < 0x80 {
      forall i | 0 <= i < |e| ensures (e[i] as int) < 0x80 {
        if (c as int) < 0x20 && c as int != 0x08 && c != '\t' && c != '\n' && c as int != 0x0C && c != '\r' {
          assert e == "\\u00" + [HexDigit((c as int) / 16), HexDigit((c as int) % 16)];
        }
      }
    } else {
      assert e[0] == c;
    }
  }

  /** Quoting keeps a string ASCII and adds nothing outside ASCII. */
  lemma {:induction false} EscapeAscii(s: string)
    ensures Ascii(Escape(s)) <==> Ascii(s)
    decreases |s|
  {
    if |s| > 0 {
      EscapeCharAscii(s[0]);
      EscapeAscii(s[1..]);
      AsciiConcat(EscapeChar(s[0]), Escape(s[1..]));
      AsciiConcat([s[0]], s[1..]);
      assert [s[0]] + s[1..] == s;
    }
  }

  /** A member with an ASCII key is ASCII exactly when its value is. */
  lemma MemberAscii(key: string, value: string)
    requires Ascii(key)
    ensures Ascii(Member(key, value)) <==> Ascii(value)
  {
    EscapeAscii(key);
    EscapeAscii(value);
    AsciiConcat("\"", Escape(key));
    AsciiConcat("\"" + Escape(key), "\"");
    AsciiConcat("\"", Escape(value));
    AsciiConcat("\"" + Escape(value), "\"");
    AsciiConcat(Quote(key), ":");
    AsciiConcat(Quote(key) + ":", Quote(value));
  }

  /** A join with an ASCII separator is ASCII exactly when every element is. */
  lemma {:induction false} JoinAscii(xs: seq<string>, sep: string)
    requires Ascii(sep)
    ensures Ascii(Join(xs, sep)) <==> forall i | 0 <= i < |xs| :: Ascii(xs[i])
    decreases |xs|
  {
    if |xs| > 1 {
      JoinAscii(xs[1..], sep);
      AsciiConcat(xs[0], sep);
      AsciiConcat(xs[0] + sep, Join(xs[1..], sep));
      assert forall i | 1 <= i < |xs| :: xs[i] == xs[1..][i - 1];
    }
  }
}

=== FILE: project_config.dfy ===
/** The project configuration loader of src/lib/ProjectConfig.ts: a fail-fast
    validator over the parsed `.aws-web-pub.json` document, and the mapping
    from a valid configuration to the stack's props. Reading and parsing the
    file is outside the model; the parsed document is the input. */
module ProjectConfig {
  import opened Results
  import opened Json
  import opened StackPlan

  const ProjectNameMessage := "config property \"projectName\" must exist and must be a string"
  const PublishDirMessage := "config property \"publishDir\" must exist and must be a string"
  const NotFoundPathMessage := "config property \"notFoundPath\" must be a string"
  const DomainsMessage := "config property \"domains\" must be an array"
  const DomainNameMessage := "domain.name missing"
  const DnsZoneNameMessage := "when present domain.dnsZoneName must be a string"
  const CertificateArnMessage := "config property \"certificateArn\" must be a string"

  /** A property that is a non-empty string (truthy and of type string). */
  predicate NonEmptyStringProp(j: Json, key: string)
  {
    TruthyProp(j, key) && StringProp(j, key)
  }

  /** A property that, when truthy, is a string. */
  predicate OptionalStringProp(j: Json, key: string)
  {
    TruthyProp(j, key) ==> StringProp(j, key)
  }

  /** What the `ProjectConfig` type promises of a validated document, stated
      field by field and independently of the order of the checks. */
  predicate IsDomainInfo(d: Json)
  {
    !d.JNull? && TruthyProp(d, "name") && OptionalStringProp(d, "dnsZoneName")
  }

  predicate IsProjectConfig(obj: Json)
  {
    && obj.JObj?
    && NonEmptyStringProp(obj, "projectName")
    && NonEmptyStringProp(obj, "publishDir")
    && OptionalStringProp(obj, "notFoundPath")
    && (TruthyProp(obj, "domains") ==>
          && obj.fields["domains"].JArr?
          && forall i :: 0 <= i < |obj.fields["domains"].items| ==> IsDomainInfo(obj.fields["domains"].items[i]))
    && OptionalStringProp(obj, "certificateArn")
  }

  /** The body of the `for … of obj.domains` loop for one element: the error it
      throws, if any. Reading `.name` of a `null` element throws a TypeError. */
  function DomainError(d: Json): (r: Option<string>)
    ensures r.None? <==> IsDomainInfo(d)
  {
    if d.JNull? then Some(NullRead("name"))
    else if !TruthyProp(d, "name") then Some(DomainNameMessage)
    else if TruthyProp(d, "dnsZoneName") && !StringProp(d, "dnsZoneName") then Some(DnsZoneNameMessage)
    else None
  }

  /** The position at which the loop stops: the first element with an error,
      or the length of the list when every element passes. */
  function FirstBadDomain(ds: seq<Json>): (k: nat)
    ensures k <= |ds|
    ensures forall j :: 0 <= j < k ==> DomainError(ds[j]).None?
    ensures k < |ds| ==> DomainError(ds[k]).Some?
  {
    if |ds| == 0 then 0
    else if DomainError(ds[0]).Some? then 0
    else 1 + FirstBadDomain(ds[1..])
  }

  /** `validateConfig`: the checks in source order, each throwing on failure;
      on success the input itself is returned. `obj` being `null` makes the
      first property read throw. */
  function Validate(obj: Json): (r: Result<Json>)
    ensures r.Ok? <==> IsProjectConfig(obj)
    ensures r.Ok? ==> r.value == obj
  {
    if obj.JNull? then Err(NullRead("projectName"))
    else if !NonEmptyStringProp(obj, "projectName") then Err(ProjectNameMessage)
    else if !NonEmptyStringProp(obj, "publishDir") then Err(PublishDirMessage)
    else if !OptionalStringProp(obj, "notFoundPath") then Err(NotFoundPathMessage)
    else if TruthyProp(obj, "domains") && !obj.fields["domains"].JArr? then Err(DomainsMessage)
    else if TruthyProp(obj, "domains") && FirstBadDomain(obj.fields["domains"].items) < |obj.fields["domains"].items| then
      var items := obj.fields["domains"].items;
      Err(DomainError(items[FirstBadDomain(items)]).value)
    else if !OptionalStringProp(obj, "certificateArn") then Err(CertificateArnMessage)
    else Ok(obj)
  }

  // ---------------------------------------------------------------------------
  // Reference definition: every violation, in source order.

  function ElementViolations(d: Json): seq<string>
  {
    if d.JNull? then [NullRead("name")]
    else
      (if !TruthyProp(d, "name") then [DomainNameMessage] else [])
      + (if !OptionalStringProp(d, "dnsZoneName") then [DnsZoneNameMessage] else [])
  }

  function AllElementViolations(ds: seq<Json>): seq<string>
  {
    if |ds| == 0 then [] else ElementViolations(ds[0]) + AllElementViolations(ds[1..])
  }

  /** All the ways `obj` breaks the configuration's rules, listed in the order
      the source checks them; a `null` document breaks them at its first read. */
  function Violations(obj: Json): seq<string>
  {
    if obj.JNull? then [NullRead("projectName")]
    else
      (if !NonEmptyStringProp(obj, "projectName") then [ProjectNameMessage] else [])
      + (if !NonEmptyStringProp(obj, "publishDir") then [PublishDirMessage] else [])
      + (if !OptionalStringProp(obj, "notFoundPath") then [NotFoundPathMessage] else [])
      + (if !TruthyProp(obj, "domains") then []
         else if !obj.fields["domains"].JArr? then [DomainsMessage]
         else AllElementViolations(obj.fields["domains"].items))
      + (if !OptionalStringProp(obj, "certificateArn") then [CertificateArnMessage] else [])
  }

  lemma ElementViolationsFirst(d: Json)
    ensures ElementViolations(d) == [] <==> DomainError(d).None?
    ensures ElementViolations(d) != [] ==> ElementViolations(d)[0] == DomainError(d).value
  {
  }

  lemma {:induction false} AllElementViolationsFirst(ds: seq<Json>)
    ensures AllElementViolations(ds) == [] <==> FirstBadDomain(ds) == |ds|
    ensures AllElementViolations(ds) != [] ==>
      AllElementViolations(ds)[0] == DomainError(ds[FirstBadDomain(ds)]).value
    decreases |ds|
  {
    if |ds| > 0 {
      ElementViolationsFirst(ds[0]);
      AllElementViolationsFirst(ds[1..]);
      if DomainError(ds[0]).None? {
        assert ds[1..][FirstBadDomain(ds[1..])..] == ds[1 + FirstBadDomain(ds[1..])..];
      }
    }
  }

  /** Fail-fast in a fixed order: validation succeeds exactly when nothing is
      violated, and otherwise reports the first violation in source order. */
  lemma ValidateReportsFirstViolation(obj: Json)
    ensures Violations(obj) == [] ==> Validate(obj) == Ok(obj)
    ensures Violations(obj) != [] ==> Validate(obj) == Err(Violations(obj)[0])
  {
    if !obj.JNull? && TruthyProp(obj, "domains") && obj.fields["domains"].JArr? {
      AllElementViolationsFirst(obj.fields["domains"].items);
    }
  }

  /** `projectName` and `publishDir` are mandatory: a document whose
      `projectName` is missing, empty or not a string is rejected with the
      `projectName` message whatever else it holds, and likewise for
      `publishDir` once `projectName` passes. */
  lemma RequiredFieldsRejected(obj: Json)
    requires obj.JObj?
    ensures !NonEmptyStringProp(obj, "projectName") ==> Validate(obj) == Err(ProjectNameMessage)
    ensures NonEmptyStringProp(obj, "projectName") && !NonEmptyStringProp(obj, "publishDir") ==>
      Validate(obj) == Err(PublishDirMessage)
  {
  }

  /** `notFoundPath`, `domains` and `certificateArn` are checked only when
      truthy: a falsy value of any type (`false`, `0`, `""`, `null`) is judged
      exactly as if the key were absent. */
  lemma FalsyOptionalFieldIsAbsent(m: map<string, Json>, key: string, v: Json)
    requires key in {"notFoundPath", "domains", "certificateArn"}
    requires !Truthy(v)
    ensures Violations(JObj(m[key := v])) == Violations(JObj(m - {key}))
    ensures Validate(JObj(m[key := v])).Err? == Validate(JObj(m - {key})).Err?
  {
    FalsyFieldViolations(m, key, v);
    ValidateReportsFirstViolation(JObj(m[key := v]));
    ValidateReportsFirstViolation(JObj(m - {key}));
  }

  lemma FalsyFieldViolations(m: map<string, Json>, key: string, v: Json)
    requires key in {"notFoundPath", "domains", "certificateArn"}
    requires !Truthy(v)
    ensures Violations(JObj(m[key := v])) == Violations(JObj(m - {key}))
  {
    var a, b := JObj(m[key := v]), JObj(m - {key});
    forall k | k != key
      ensures Prop(a, k) == Prop(b, k)
    {
    }
  }

  // ---------------------------------------------------------------------------
  // Props derivation.

  /** The props handed to the stack: `StaticWebStackProps` with the domain list
      and certificate ARN carried as the raw parsed values. */
  datatype StackProps = StackProps(
    stackName: string,
    publishDir: string,
    errorConfigurations: seq<ErrorResponse>,
    domains: Option<Json>,
    certificateArn: Option<Json>)

  /** `getStackPropsFromProject`. `resolve` stands for `path.resolve`. */
  function StackPropsFromProject(resolve: seq<string> -> string, projectPath: string, config: Json): (p: StackProps)
    requires IsProjectConfig(config)
    ensures p.stackName == config.fields["projectName"].s
    ensures p.publishDir == resolve([projectPath, config.fields["publishDir"].s])
    ensures p.domains == Prop(config, "domains")
    ensures p.certificateArn == Prop(config, "certificateArn")
    ensures !TruthyProp(config, "notFoundPath") ==> p.errorConfigurations == []
    ensures TruthyProp(config, "notFoundPath") ==>
      p.errorConfigurations == [ErrorResponse(404, 404, config.fields["notFoundPath"].s)]
  {
    var errorConfigurations :=
      if TruthyProp(config, "notFoundPath")
      then [ErrorResponse(404, 404, config.fields["notFoundPath"].s)]
      else [];
    StackProps(
      config.fields["projectName"].s,
      resolve([projectPath, config.fields["publishDir"].s]),
      errorConfigurations,
      Prop(config, "domains"),
      Prop(config, "certificateArn"))
  }

  /** `getStackProps` after the file has been read and parsed: validate, then
      derive; a validation failure is the result. */
  function GetStackProps(resolve: seq<string> -> string, projectPath: string, parsed: Json): (r: Result<StackProps>)
    ensures r.Err? <==> Validate(parsed).Err?
    ensures r.Err? ==> r.error == Validate(parsed).error
    ensures r.Ok? ==> r.value.stackName == parsed.fields["projectName"].s
    ensures r.Ok? ==> IsProjectConfig(parsed) && r.value == StackPropsFromProject(resolve, projectPath, parsed)
  {
    match Validate(parsed)
    case Err(e) => Err(e)
    case Ok(config) => Ok(StackPropsFromProject(resolve, projectPath, config))
  }

  // ---------------------------------------------------------------------------
  // The domain list as the stack reads it.

  /** As written, the website stack takes `props.domains ?? []` and then calls
      `.slice(1)` and `.map(…)` on it. `??` only replaces `null`/`undefined`, so
      any other non-array makes the constructor throw, modelled as `None`: a
      boolean, number or object has no `.slice`; a string survives `.slice`,
      and then `""` fails at `.map` while a longer one fails earlier, where its
      first character is used as a domain. The falsy ones (`false`, `0`, `""`)
      are exactly those validation lets through. */
  function StackDomainsAsWritten(d: Option<Json>): (r: Option<seq<Json>>)
    ensures d.None? || d == Some(JNull) ==> r == Some([])
    ensures d.Some? && d.value.JArr? ==> r == Some(d.value.items)
    ensures d.Some? && (d.value.JBool? || d.value.JNum? || d.value.JStr? || d.value.JObj?) ==> r.None?
  {
    match d
    case None => Some([])
    case Some(JNull) => Some([])
    case Some(JArr(items)) => Some(items)
    case Some(_) => None
  }

  /** A document the validator accepts whose domain list the stack cannot read. */
  lemma FalsyDomainsBreakTheStack()
    ensures var config := JObj(map["projectName" := JStr("site"), "publishDir" := JStr("public"), "domains" := JBool(false)]);
      Validate(config).Ok? && StackDomainsAsWritten(Prop(config, "domains")).None?
  {
  }

  /** The domain list as the stack should read it: every falsy value means
      "no domains", exactly as the validator treats it. */
  function StackDomains(d: Option<Json>): (r: Option<seq<Json>>)
    ensures (d.None? || !Truthy(d.value)) ==> r == Some([])
    ensures d.Some? && d.value.JArr? ==> r == Some(d.value.items)
  {
    match d
    case None => Some([])
    case Some(v) =>
      if !Truthy(v) then Some([])
      else if v.JArr? then Some(v.items)
      else None
  }

  /** Every validated configuration yields a usable domain list, each element a
      well-formed domain. */
  lemma ValidatedDomainsReadable(config: Json)
    requires Validate(config).Ok?
    ensures StackDomains(Prop(config, "domains")).Some?
    ensures forall d | d in StackDomains(Prop(config, "domains")).value :: IsDomainInfo(d)
  {
  }
}

=== FILE: results.dfy ===
/** Failure-carrying values shared by every module of the model.
    A JavaScript `undefined` becomes `None`; a thrown `Error` becomes `Err`
    carrying the error's `message`. */
module Results {

  datatype Option<+T> = None | Some(value: T) {
    function GetOr(default: T): T {
      match this
      case Some(v) => v
      case None => default
    }
  }

  datatype Result<+T> = Ok(value: T) | Err(error: string)

  /** JavaScript truthiness of an optional string: present and non-empty. */
  predicate Present(s: Option<string>)
  {
    s.Some? && s.value != ""
  }
}

=== FILE: stack_plan.dfy ===
/** The abstract "plan" a stack constructor builds: which constructs exist and
    with what arguments. CDK constructs are records of their arguments; values
    CloudFormation only knows at deploy time (bucket names, distribution ids
    and domain names) are opaque tokens given as input. */
module StackPlan {
  import opened Results
  import opened Strings
  import opened HostedZoneLookup

  /** `CfnDistribution.CustomErrorResponseProperty`. */
  datatype ErrorResponse = ErrorResponse(errorCode: int, responseCode: int, responsePagePath: string)

  /** An ACM certificate: imported by ARN, or requested for a domain and its
      alternative names with DNS validation in the given zones. */
  datatype Certificate =
    | ImportedCert(arn: string)
    | GeneratedCert(domainName: string, subjectAlternativeNames: seq<string>, validationZones: map<string, ZoneHandle>)

  datatype ViewerCertificate = ViewerCertificate(certificate: Certificate, aliases: seq<string>)

  /** The main CloudFront distribution, fronting the bucket's website endpoint
      over HTTP. */
  datatype WebDistribution = WebDistribution(
    comment: string,
    originDomainName: string,
    viewerCertificate: Option<ViewerCertificate>,
    errorConfigurations: Option<seq<ErrorResponse>>)

  /** A Route 53 alias record pointing at the main distribution. */
  datatype ARecord = ARecord(recordName: string, zone: ZoneHandle)

  /** The content upload and the invalidation it triggers. */
  datatype Deployment = Deployment(
    source: string,
    distributionPaths: seq<string>,
    retainOnDelete: bool,
    prune: Option<bool>)

  datatype SourceDomain = SourceDomain(domainName: string, hostedZone: ZoneHandle)

  /** The `DomainWebRedirect` construct: redirect distributions for the source
      domains, all pointing at the target domain. */
  datatype Redirect = Redirect(sourceDomains: seq<SourceDomain>, certificate: Certificate, targetDomain: string)

  datatype Distribution = MainDistribution | RedirectDistribution

  datatype DistributionToken = DistributionToken(distributionId: string, domainName: string)

  /** Deploy-time values: the bucket's name and website domain, and the tokens
      of the main and the redirect distribution. */
  datatype Tokens = Tokens(
    bucketName: string,
    bucketWebsiteDomainName: string,
    main: DistributionToken,
    redirect: DistributionToken)

  /** The six `CfnOutput` values. */
  datatype Outputs = Outputs(
    bucketName: string,
    s3Url: string,
    webDistributionIds: string,
    webDistributionUrls: string,
    redirectingUrls: string,
    urls: string)

  datatype Plan = Plan(
    certificate: Option<Certificate>,
    distribution: WebDistribution,
    aRecord: Option<ARecord>,
    deployment: Deployment,
    redirect: Option<Redirect>,
    distributions: seq<Distribution>,
    outputs: Outputs,
    lookups: Lookup)

  const Separator := ", "

  /** The redirect construct's source domains: each redirect domain's name
      with the zone handle resolved for it, in order. */
  function SourcesOf(redirects: seq<DomainInfo>, hs: seq<ZoneHandle>): (r: seq<SourceDomain>)
    requires |hs| == |redirects|
    ensures |r| == |redirects|
    ensures forall i | 0 <= i < |redirects| :: r[i].domainName == redirects[i].name && r[i].hostedZone == hs[i]
  {
    seq(|redirects|, i requires 0 <= i < |redirects| => SourceDomain(redirects[i].name, hs[i]))
  }

  function TokenOf(t: Tokens, d: Distribution): DistributionToken
  {
    match d
    case MainDistribution => t.main
    case RedirectDistribution => t.redirect
  }

  /** `"https://" + name` for each name, in order. */
  function HttpsUrls(names: seq<string>): (r: seq<string>)
    ensures |r| == |names|
    ensures forall i | 0 <= i < |names| :: r[i] == "https://" + names[i]
  {
    seq(|names|, i requires 0 <= i < |names| => "https://" + names[i])
  }

  function DistributionIds(t: Tokens, ds: seq<Distribution>): seq<string>
  {
    seq(|ds|, i requires 0 <= i < |ds| => TokenOf(t, ds[i]).distributionId)
  }

  function DistributionDomains(t: Tokens, ds: seq<Distribution>): seq<string>
  {
    seq(|ds|, i requires 0 <= i < |ds| => TokenOf(t, ds[i]).domainName)
  }

  /** The outputs over a distribution list, the redirect domain names and the
      primary domain name, if any. */
  function MakeOutputs(t: Tokens, ds: seq<Distribution>, redirectNames: seq<string>, primary: Option<string>): (o: Outputs)
    requires ds == [MainDistribution] || ds == [MainDistribution, RedirectDistribution]
    ensures o.bucketName == t.bucketName
    ensures o.s3Url == "http://" + t.bucketWebsiteDomainName
    ensures ds == [MainDistribution] ==>
      o.webDistributionIds == t.main.distributionId
      && o.webDistributionUrls == "https://" + t.main.domainName
    ensures ds == [MainDistribution, RedirectDistribution] ==>
      o.webDistributionIds == t.main.distributionId + ", " + t.redirect.distributionId
      && o.webDistributionUrls == "https://" + t.main.domainName + ", https://" + t.redirect.domainName
    ensures o.redirectingUrls == Join(HttpsUrls(redirectNames), Separator)
    ensures o.redirectingUrls == "" <==> |redirectNames| == 0
    ensures |redirectNames| > 0 ==> "https://" + redirectNames[0] <= o.redirectingUrls
    ensures o.urls == (if primary.Some? then "https://" + primary.value else "")
  {
    var ids := DistributionIds(t, ds);
    var urls := HttpsUrls(DistributionDomains(t, ds));
    var redirecting := HttpsUrls(redirectNames);
    JoinFacts(t, ds, redirectNames);
    Outputs(
      t.bucketName,
      "http://" + t.bucketWebsiteDomainName,
      Join(ids, Separator),
      Join(urls, Separator),
      Join(redirecting, Separator),
      if primary.Some? then "https://" + primary.value else "")
  }

  lemma JoinFacts(t: Tokens, ds: seq<Distribution>, redirectNames: seq<string>)
    requires ds == [MainDistribution] || ds == [MainDistribution, RedirectDistribution]
    ensures var ids := Join(DistributionIds(t, ds), Separator);
      var urls := Join(HttpsUrls(DistributionDomains(t, ds)), Separator);
      && (ds == [MainDistribution] ==> ids == t.main.distributionId && urls == "https://" + t.main.domainName)
      && (ds == [MainDistribution, RedirectDistribution] ==>
            ids == t.main.distributionId + ", " + t.redirect.distributionId
            && urls == "https://" + t.main.domainName + ", https://" + t.redirect.domainName)
    ensures var r := Join(HttpsUrls(redirectNames), Separator);
      r == "" <==> |redirectNames| == 0
  {
    var ids := DistributionIds(t, ds);
    var urls := HttpsUrls(DistributionDomains(t, ds));
    if |ds| == 2 {
      assert ids == [t.main.distributionId, t.redirect.distributionId];
      assert urls == ["https://" + t.main.domainName, "https://" + t.redirect.domainName];
      JoinPair(ids[0], ids[1], Separator);
      JoinPair(urls[0], urls[1], Separator);
    } else {
      assert ids == [t.main.distributionId];
      assert urls == ["https://" + t.main.domainName];
    }
  }
}

=== FILE: static_web_stack.dfy ===
/** The constructor of the older src/lib/StaticWebStack.ts, whose props
    require a domain list: the primary domain is dereferenced unconditionally,
    so the list must be non-empty, and the certificate, alias, A record and
    redirect construct always exist. */
module StaticWebStack {
  import opened Results
  import opened Strings
  import opened HostedZoneLookup
  import opened StackPlan

  /** `StaticWebStackProps`. */
  datatype Props = Props(
    publishDir: string,
    errorConfigurations: Option<seq<ErrorResponse>>,
    domains: seq<DomainInfo>,
    certificateArn: Option<string>)

  /** The certificate: imported when an ARN is given; otherwise requested for
      the head of the names list with the tail as alternative names, validated
      in a zones record keyed by domain name. */
  function CertificateStep(st: Lookup, domains: seq<DomainInfo>, arn: Option<string>): (r: (Lookup, Certificate))
    requires Valid(st)
    requires |domains| > 0
    ensures Valid(r.0)
    ensures Present(arn) ==> r == (st, ImportedCert(arn.value))
    ensures !Present(arn) ==>
      && r.1.GeneratedCert?
      && r.1.domainName == domains[0].name
      && r.1.subjectAlternativeNames == Names(domains)[1..]
      && r.1.validationZones.Keys == (set n | n in Names(domains))
      && r.0.zones.Keys == st.zones.Keys + ZoneNames(domains)
    ensures !Present(arn) ==>
      forall i | LastWithName(domains, i) ::
        && domains[i].name in r.1.validationZones
        && ZoneName(domains[i]) in r.0.zones
        && r.1.validationZones[domains[i].name] == r.0.zones[ZoneName(domains[i])]
        && r.1.validationZones[domains[i].name].zoneName == ZoneName(domains[i])
    ensures forall k | k in st.zones :: k in r.0.zones && r.0.zones[k] == st.zones[k]
  {
    if Present(arn) then (st, ImportedCert(arn.value))
    else
      var recorded := ZonesByName(st, domains);
      var names := Names(domains);
      (recorded.0, GeneratedCert(names[0], names[1..], recorded.1))
  }

  /** The constructor's decisions, in source order, threading the zone cache. */
  function Build(props: Props, t: Tokens): (p: Plan)
    requires |props.domains| > 0
    ensures Valid(p.lookups)
    ensures p.deployment.distributionPaths == ["/*"]
    ensures p.deployment.prune.None?
    ensures p.deployment.source == props.publishDir
    ensures p.distribution.errorConfigurations == props.errorConfigurations
  {
    var primary := props.domains[0];
    var redirects := props.domains[1..];
    var certified := CertificateStep(Empty, props.domains, props.certificateArn);
    var certificate := certified.1;
    var viewer := Some(ViewerCertificate(certificate, [primary.name]));
    var distribution := WebDistribution(primary.name, t.bucketWebsiteDomainName, viewer, props.errorConfigurations);
    var recorded := GetHostedZone(certified.0, primary);
    var aRecord := Some(ARecord(primary.name, recorded.1));
    var deployment := Deployment(props.publishDir, ["/*"], false, None);
    var redirected := GetHostedZones(recorded.0, redirects);
    var redirect := Some(Redirect(SourcesOf(redirects, redirected.1), certificate, primary.name));
    var distributions := [MainDistribution, RedirectDistribution];
    var outputs := MakeOutputs(t, distributions, Names(redirects), Some(primary.name));
    Plan(Some(certificate), distribution, aRecord, deployment, redirect, distributions, outputs, redirected.0)
  }

  /** A truthy ARN is imported; otherwise the certificate covers the head of
      the names list with the tail as alternative names, and its zones record
      has one key per domain name. */
  lemma CertificatePolicy(props: Props, t: Tokens)
    requires |props.domains| > 0
    ensures var p, ds := Build(props, t), props.domains;
      && p.certificate.Some?
      && (Present(props.certificateArn) ==> p.certificate.value == ImportedCert(props.certificateArn.value))
      && (!Present(props.certificateArn) ==>
            && p.certificate.value.GeneratedCert?
            && p.certificate.value.domainName == ds[0].name
            && p.certificate.value.subjectAlternativeNames == Names(ds[1..])
            && p.certificate.value.validationZones.Keys == (set n | n in Names(ds))
            && (forall i | LastWithName(ds, i) ::
                  && ds[i].name in p.certificate.value.validationZones
                  && ZoneName(ds[i]) in p.lookups.zones
                  && p.certificate.value.validationZones[ds[i].name] == p.lookups.zones[ZoneName(ds[i])]))
  {
    var ds := props.domains;
    assert Names(ds)[1..] == Names(ds[1..]);
    var certified := CertificateStep(Empty, ds, props.certificateArn);
    var recorded := GetHostedZone(certified.0, ds[0]);
    var redirected := GetHostedZones(recorded.0, ds[1..]);
    assert Build(props, t).lookups == redirected.0;
  }

  /** The alias `[primary name]` and the primary's A record always exist. */
  lemma AliasAndRecordPolicy(props: Props, t: Tokens)
    requires |props.domains| > 0
    ensures var p, ds := Build(props, t), props.domains;
      && p.distribution.viewerCertificate == Some(ViewerCertificate(p.certificate.value, [ds[0].name]))
      && p.distribution.comment == ds[0].name
      && p.aRecord.Some?
      && p.aRecord.value.recordName == ds[0].name
      && p.aRecord.value.zone.zoneName == ZoneName(ds[0])
  {
  }

  /** The redirect construct is always created, even for a single domain, so
      there are always two distributions; its sources are the redirect domains
      in order and its target is the primary name. */
  lemma RedirectPolicy(props: Props, t: Tokens)
    requires |props.domains| > 0
    ensures var p, ds := Build(props, t), props.domains;
      && p.redirect.Some?
      && p.redirect.value.targetDomain == ds[0].name
      && p.redirect.value.certificate == p.certificate.value
      && |p.redirect.value.sourceDomains| == |ds| - 1
      && (forall i | 1 <= i < |ds| ::
            p.redirect.value.sourceDomains[i - 1].domainName == ds[i].name
            && p.redirect.value.sourceDomains[i - 1].hostedZone.zoneName == ZoneName(ds[i]))
      && p.distributions == [MainDistribution, RedirectDistribution]
  {
    var ds := props.domains;
    var certified := CertificateStep(Empty, ds, props.certificateArn);
    var recorded := GetHostedZone(certified.0, ds[0]);
    var redirected := GetHostedZones(recorded.0, ds[1..]);
    var sources := SourcesOf(ds[1..], redirected.1);
    assert Build(props, t).redirect == Some(Redirect(sources, certified.1, ds[0].name));
    forall i | 1 <= i < |ds|
      ensures sources[i - 1].domainName == ds[i].name && sources[i - 1].hostedZone.zoneName == ZoneName(ds[i])
    {
      assert ds[1..][i - 1] == ds[i];
    }
  }

  /** `Urls` is always the primary URL, the distribution outputs always list
      both distributions, and `RedirectingUrls` is empty iff there is only the
      primary domain. */
  lemma OutputsPolicy(props: Props, t: Tokens)
    requires |props.domains| > 0
    ensures var p, ds := Build(props, t), props.domains;
      && p.outputs.urls == "https://" + ds[0].name
      && p.outputs.webDistributionIds == t.main.distributionId + ", " + t.redirect.distributionId
      && p.outputs.webDistributionUrls == "https://" + t.main.domainName + ", https://" + t.redirect.domainName
      && p.outputs.redirectingUrls == Join(HttpsUrls(Names(ds[1..])), Separator)
      && (p.outputs.redirectingUrls == "" <==> |ds| == 1)
      && (|ds| >= 2 ==> "https://" + ds[1].name <= p.outputs.redirectingUrls)
  {
  }

  /** The distinct zones of the domains are each looked up exactly once. */
  lemma LookupPolicy(props: Props, t: Tokens)
    requires |props.domains| > 0
    ensures var p, ds := Build(props, t), props.domains;
      && p.lookups.zones.Keys == ZoneNames(ds)
      && |p.lookups.log| == |ZoneNames(ds)|
  {
    LookupKeys(props, t);
    LogCountsZones(Build(props, t).lookups);
  }

  lemma LookupKeys(props: Props, t: Tokens)
    requires |props.domains| > 0
    ensures Build(props, t).lookups.zones.Keys == ZoneNames(props.domains)
  {
    var ds := props.domains;
    var st1 := CertificateStep(Empty, ds, props.certificateArn).0;
    var st2 := GetHostedZone(st1, ds[0]).0;
    var st3 := GetHostedZones(st2, ds[1..]).0;
    assert Build(props, t).lookups == st3;
    ZoneKeysChain(st1.zones.Keys, st2.zones.Keys, st3.zones.Keys, ds);
  }
}

=== FILE: static_website_stack.dfy ===
/** The constructor of src/lib/StaticWebsiteStack.ts as a pure function from
    props to a plan. The domain list is optional: with no domains the site is
    served from the distribution's own domain, without certificate, alias,
    DNS record or redirects. */
module StaticWebsiteStack {
  import opened Results
  import opened Strings
  import opened Json
  import opened HostedZoneLookup
  import opened StackPlan
  import ProjectConfig

  /** `StaticWebsiteStackProps`. */
  datatype Props = Props(
    stackName: Option<string>,
    publishDir: string,
    deleteOldFiles: Option<bool>,
    errorConfigurations: Option<seq<ErrorResponse>>,
    domains: Option<seq<DomainInfo>>,
    certificateArn: Option<string>)

  const DefaultComment := "aws-web-pub site"

  /** The `TypeError` a call of the undefined `getHostedZones` throws. */
  const GetHostedZonesMissing := "hostedZoneLookup.getHostedZones is not a function"

  /** The certificate: none without a primary domain; imported when an ARN is
      given; otherwise requested for the primary name with the redirect names
      as alternative names, validated in the zones of all domains (the zones
      record is built as src/lib/StaticWebStack.ts builds it). */
  function CertificateStep(st: Lookup, domains: seq<DomainInfo>, arn: Option<string>): (r: (Lookup, Option<Certificate>))
    requires Valid(st)
    ensures Valid(r.0)
    ensures r.1.Some? <==> |domains| > 0
    ensures |domains| > 0 && Present(arn) ==> r == (st, Some(ImportedCert(arn.value)))
    ensures |domains| > 0 && !Present(arn) ==>
      && r.1.value.GeneratedCert?
      && r.1.value.domainName == domains[0].name
      && r.1.value.subjectAlternativeNames == Names(domains[1..])
      && r.1.value.validationZones.Keys == (set n | n in Names(domains))
      && r.0.zones.Keys == st.zones.Keys + ZoneNames(domains)
    ensures |domains| > 0 && !Present(arn) ==>
      forall i | LastWithName(domains, i) ::
        && domains[i].name in r.1.value.validationZones
        && ZoneName(domains[i]) in r.0.zones
        && r.1.value.validationZones[domains[i].name] == r.0.zones[ZoneName(domains[i])]
        && r.1.value.validationZones[domains[i].name].zoneName == ZoneName(domains[i])
    ensures |domains| == 0 ==> r.0 == st
    ensures forall k | k in st.zones :: k in r.0.zones && r.0.zones[k] == st.zones[k]
  {
    if |domains| == 0 then (st, None)
    else if Present(arn) then (st, Some(ImportedCert(arn.value)))
    else
      var (st', zones) := ZonesByName(st, domains);
      (st', Some(GeneratedCert(domains[0].name, Names(domains[1..]), zones)))
  }

  /** The certificate step as written: line 36 calls `getHostedZones`, which
      HostedZoneLookup does not define, so every primary domain without an ARN
      makes the constructor throw. */
  function CertificateStepAsWritten(st: Lookup, domains: seq<DomainInfo>, arn: Option<string>): (r: Result<(Lookup, Option<Certificate>)>)
    requires Valid(st)
    ensures r.Err? <==> |domains| > 0 && !Present(arn)
  {
    if |domains| > 0 && !Present(arn) then Err(GetHostedZonesMissing)
    else Ok(CertificateStep(st, domains, arn))
  }

  /** As written, no certificate is ever generated: the path that should
      request one throws instead. */
  lemma GeneratedCertificateUnreachableAsWritten(domains: seq<DomainInfo>, arn: Option<string>)
    requires |domains| > 0 && !Present(arn)
    ensures CertificateStepAsWritten(Empty, domains, arn) == Err(GetHostedZonesMissing)
    ensures CertificateStep(Empty, domains, arn).1.value.GeneratedCert?
  {
  }

  /** The redirect construct's source domains, each with its zone. */
  function RedirectSources(st: Lookup, redirects: seq<DomainInfo>): (r: (Lookup, seq<SourceDomain>))
    requires Valid(st)
    ensures Valid(r.0)
    ensures |r.1| == |redirects|
    ensures forall i | 0 <= i < |redirects| ::
      r.1[i].domainName == redirects[i].name
      && ZoneName(redirects[i]) in r.0.zones
      && r.1[i].hostedZone == r.0.zones[ZoneName(redirects[i])]
    ensures r.0.zones.Keys == st.zones.Keys + ZoneNames(redirects)
    ensures forall k | k in st.zones :: k in r.0.zones && r.0.zones[k] == st.zones[k]
  {
    var resolved := GetHostedZones(st, redirects);
    (resolved.0, SourcesOf(redirects, resolved.1))
  }

  /** The constructor's decisions, in source order, threading the zone cache. */
  function Build(props: Props, t: Tokens): (p: Plan)
    ensures Valid(p.lookups)
    ensures p.distributions == [MainDistribution] || p.distributions == [MainDistribution, RedirectDistribution]
    ensures p.deployment.distributionPaths == ["/*"]
    ensures p.deployment.prune == props.deleteOldFiles
    ensures p.deployment.source == props.publishDir
    ensures p.distribution.errorConfigurations == props.errorConfigurations
  {
    var domains := props.domains.GetOr([]);
    var primary := if |domains| > 0 then Some(domains[0]) else None;
    var redirects := if |domains| > 0 then domains[1..] else [];
    var certified := CertificateStep(Empty, domains, props.certificateArn);
    var certificate := certified.1;
    var viewer :=
      if certificate.Some? && primary.Some?
      then Some(ViewerCertificate(certificate.value, [primary.value.name]))
      else None;
    var comment := if primary.Some? && primary.value.name != "" then primary.value.name else DefaultComment;
    var distribution := WebDistribution(comment, t.bucketWebsiteDomainName, viewer, props.errorConfigurations);
    var recorded := if primary.Some? then GetHostedZone(certified.0, primary.value) else (certified.0, ZoneHandle(0, ""));
    var aRecord := if primary.Some? then Some(ARecord(primary.value.name, recorded.1)) else None;
    var deployment := Deployment(props.publishDir, ["/*"], false, props.deleteOldFiles);
    var redirected :=
      if primary.Some? && |redirects| > 0 && certificate.Some?
      then RedirectSources(recorded.0, redirects)
      else (recorded.0, []);
    var redirect :=
      if primary.Some? && |redirects| > 0 && certificate.Some?
      then Some(Redirect(redirected.1, certificate.value, primary.value.name))
      else None;
    var distributions := if redirect.Some? then [MainDistribution, RedirectDistribution] else [MainDistribution];
    var outputs := MakeOutputs(t, distributions, Names(redirects), if primary.Some? then Some(primary.value.name) else None);
    Plan(certificate, distribution, aRecord, deployment, redirect, distributions, outputs, redirected.0)
  }

  /** The configured domain list, absent meaning empty. */
  function DomainsOf(props: Props): seq<DomainInfo>
  {
    props.domains.GetOr([])
  }

  /** A certificate exists iff there is a primary domain; a truthy ARN is
      imported; otherwise one is requested for the primary name with exactly
      the redirect names, in order, as alternative names. */
  lemma CertificatePolicy(props: Props, t: Tokens)
    ensures var p, ds := Build(props, t), DomainsOf(props);
      && (p.certificate.Some? <==> |ds| > 0)
      && (|ds| > 0 && Present(props.certificateArn) ==> p.certificate == Some(ImportedCert(props.certificateArn.value)))
      && (|ds| > 0 && !Present(props.certificateArn) ==>
            && p.certificate.value.GeneratedCert?
            && p.certificate.value.domainName == ds[0].name
            && p.certificate.value.subjectAlternativeNames == Names(ds[1..])
            && p.certificate.value.validationZones.Keys == (set n | n in Names(ds))
            && (forall i | LastWithName(ds, i) ::
                  && ds[i].name in p.certificate.value.validationZones
                  && ZoneName(ds[i]) in p.lookups.zones
                  && p.certificate.value.validationZones[ds[i].name] == p.lookups.zones[ZoneName(ds[i])]))
  {
    var ds := DomainsOf(props);
    if |ds| > 0 && !Present(props.certificateArn) {
      var certified := CertificateStep(Empty, ds, props.certificateArn);
      var recorded := GetHostedZone(certified.0, ds[0]);
      var redirected :=
        if |ds[1..]| > 0 then RedirectSources(recorded.0, ds[1..]) else (recorded.0, []);
      assert Build(props, t).lookups == redirected.0;
      assert Build(props, t).certificate == certified.1;
    }
  }

  /** The viewer certificate, with alias `[primary name]`, is attached iff a
      primary domain exists; the comment is the primary name, or the default
      when there is none (or its name is empty). */
  lemma ViewerPolicy(props: Props, t: Tokens)
    ensures var p, ds := Build(props, t), DomainsOf(props);
      && (p.distribution.viewerCertificate.Some? <==> |ds| > 0)
      && (|ds| > 0 ==>
            p.distribution.viewerCertificate.value.aliases == [ds[0].name]
            && p.distribution.viewerCertificate.value.certificate == p.certificate.value)
      && (|ds| == 0 ==> p.distribution.comment == DefaultComment)
      && (|ds| > 0 && ds[0].name != "" ==> p.distribution.comment == ds[0].name)
      && (|ds| > 0 && ds[0].name == "" ==> p.distribution.comment == DefaultComment)
      && p.distribution.originDomainName == t.bucketWebsiteDomainName
  {
  }

  /** An A record exists iff a primary domain exists; it is named after the
      primary domain and lives in the primary's zone. */
  lemma ARecordPolicy(props: Props, t: Tokens)
    ensures var p, ds := Build(props, t), DomainsOf(props);
      && (p.aRecord.Some? <==> |ds| > 0)
      && (|ds| > 0 ==>
            && p.aRecord.value.recordName == ds[0].name
            && ZoneName(ds[0]) in p.lookups.zones
            && p.aRecord.value.zone == p.lookups.zones[ZoneName(ds[0])]
            && p.aRecord.value.zone.zoneName == ZoneName(ds[0]))
  {
  }

  /** A redirect construct exists iff there are at least two domains; its
      sources are the redirect domains in order, each in its own zone, and its
      target is the primary name. */
  lemma RedirectPolicy(props: Props, t: Tokens)
    ensures var p, ds := Build(props, t), DomainsOf(props);
      && (p.redirect.Some? <==> |ds| >= 2)
      && (|ds| >= 2 ==>
            && p.redirect.value.targetDomain == ds[0].name
            && p.redirect.value.certificate == p.certificate.value
            && |p.redirect.value.sourceDomains| == |ds| - 1
            && forall i | 1 <= i < |ds| ::
                 p.redirect.value.sourceDomains[i - 1].domainName == ds[i].name
                 && p.redirect.value.sourceDomains[i - 1].hostedZone.zoneName == ZoneName(ds[i]))
  {
    var ds := DomainsOf(props);
    if |ds| >= 2 {
      var certified := CertificateStep(Empty, ds, props.certificateArn);
      var recorded := GetHostedZone(certified.0, ds[0]);
      var redirected := RedirectSources(recorded.0, ds[1..]);
      assert Build(props, t).redirect == Some(Redirect(redirected.1, certified.1.value, ds[0].name));
      forall i | 1 <= i < |ds|
        ensures redirected.1[i - 1].domainName == ds[i].name
        ensures redirected.1[i - 1].hostedZone.zoneName == ZoneName(ds[i])
      {
        assert ds[1..][i - 1] == ds[i];
      }
    }
  }

  /** The distribution list is the main distribution, followed by the
      redirect's when there is one; the outputs join it with ", ", main
      first, and give the primary URL or "" and the redirect URLs. */
  lemma OutputsPolicy(props: Props, t: Tokens)
    ensures var p, ds := Build(props, t), DomainsOf(props);
      && (|ds| >= 2 ==>
            p.distributions == [MainDistribution, RedirectDistribution]
            && p.outputs.webDistributionIds == t.main.distributionId + ", " + t.redirect.distributionId
            && p.outputs.webDistributionUrls == "https://" + t.main.domainName + ", https://" + t.redirect.domainName)
      && (|ds| < 2 ==>
            p.distributions == [MainDistribution]
            && p.outputs.webDistributionIds == t.main.distributionId
            && p.outputs.webDistributionUrls == "https://" + t.main.domainName)
      && (|ds| == 0 ==> p.outputs.urls == "")
      && (|ds| > 0 ==> p.outputs.urls == "https://" + ds[0].name)
      && (|ds| == 0 ==> p.outputs.redirectingUrls == "")
      && (|ds| > 0 ==> p.outputs.redirectingUrls == Join(HttpsUrls(Names(ds[1..])), Separator))
      && (p.outputs.redirectingUrls == "" <==> |ds| <= 1)
      && (|ds| >= 2 ==> "https://" + ds[1].name <= p.outputs.redirectingUrls)
  {
  }

  /** Every domain's zone is looked up exactly once, whatever the certificate
      choice: the external lookups are the distinct zones of the domains. */
  lemma LookupPolicy(props: Props, t: Tokens)
    ensures var p, ds := Build(props, t), DomainsOf(props);
      && p.lookups.zones.Keys == ZoneNames(ds)
      && |p.lookups.log| == |ZoneNames(ds)|
  {
    var ds := DomainsOf(props);
    if |ds| >= 2 {
      LookupsWithRedirects(props, t);
    } else if |ds| == 1 {
      LookupsWithoutRedirects(props, t);
    }
    LogCountsZones(Build(props, t).lookups);
  }

  lemma LookupsWithRedirects(props: Props, t: Tokens)
    requires |DomainsOf(props)| >= 2
    ensures Build(props, t).lookups.zones.Keys == ZoneNames(DomainsOf(props))
  {
    var ds := DomainsOf(props);
    var st1 := CertificateStep(Empty, ds, props.certificateArn).0;
    var st2 := GetHostedZone(st1, ds[0]).0;
    var st3 := RedirectSources(st2, ds[1..]).0;
    assert Build(props, t).lookups == st3;
    ZoneKeysChain(st1.zones.Keys, st2.zones.Keys, st3.zones.Keys, ds);
  }

  lemma LookupsWithoutRedirects(props: Props, t: Tokens)
    requires |DomainsOf(props)| == 1
    ensures Build(props, t).lookups.zones.Keys == ZoneNames(DomainsOf(props))
  {
    var ds := DomainsOf(props);
    var st1 := CertificateStep(Empty, ds, props.certificateArn).0;
    var st2 := GetHostedZone(st1, ds[0]).0;
    assert Build(props, t).lookups == st2;
    assert ZoneNames(ds[1..]) == {};
  }

  // ---------------------------------------------------------------------------
  // From the project configuration to these props.

  /** A parsed domain entry as `DomainInfo`; `None` when `name` is not a string.
      A `dnsZoneName` that is not a string is falsy in a validated entry, and
      the lookup treats it as absent. */
  function DomainInfoOf(j: Json): (r: Option<DomainInfo>)
    ensures r.Some? <==> StringProp(j, "name")
    ensures r.Some? ==> r.value.name == j.fields["name"].s
    ensures r.Some? ==> (r.value.dnsZoneName.Some? <==> StringProp(j, "dnsZoneName"))
    ensures r.Some? && r.value.dnsZoneName.Some? ==> r.value.dnsZoneName.value == j.fields["dnsZoneName"].s
  {
    if StringProp(j, "name") then
      Some(DomainInfo(j.fields["name"].s, if StringProp(j, "dnsZoneName") then Some(j.fields["dnsZoneName"].s) else None))
    else None
  }

  function DomainInfosOf(items: seq<Json>): (r: Option<seq<DomainInfo>>)
    ensures r.Some? <==> forall i | 0 <= i < |items| :: StringProp(items[i], "name")
    ensures r.Some? ==>
      |r.value| == |items| && forall i | 0 <= i < |items| :: r.value[i].name == items[i].fields["name"].s
    ensures r.Some? ==>
      forall i | 0 <= i < |items| :: DomainInfoOf(items[i]).Some? && r.value[i] == DomainInfoOf(items[i]).value
  {
    if |items| == 0 then Some([])
    else match (DomainInfoOf(items[0]), DomainInfosOf(items[1..]))
      case (Some(d), Some(ds)) => Some([d] + ds)
      case _ => None
  }

  /** The props `getStackProps` spreads into this stack: the stack name is the
      project name, `deleteOldFiles` is never set, and the domain list is read
      by the corrected `StackDomains`, falsy values meaning "none"; an array is
      carried over entry by entry. */
  function PropsFromProject(p: ProjectConfig.StackProps): (r: Option<Props>)
    ensures r.Some? ==>
      r.value.stackName == Some(p.stackName)
      && r.value.publishDir == p.publishDir
      && r.value.errorConfigurations == Some(p.errorConfigurations)
      && r.value.deleteOldFiles.None?
    ensures r.Some? && p.certificateArn.Some? && p.certificateArn.value.JStr? ==>
      r.value.certificateArn == Some(p.certificateArn.value.s)
    ensures r.Some? && (p.certificateArn.None? || !p.certificateArn.value.JStr?) ==>
      r.value.certificateArn.None?
    ensures (p.domains.None? || !Truthy(p.domains.value)) ==> r.Some? && r.value.domains == Some([])
    ensures p.domains.Some? && p.domains.value.JArr? ==>
      (r.Some? <==> DomainInfosOf(p.domains.value.items).Some?)
      && (r.Some? ==> r.value.domains == DomainInfosOf(p.domains.value.items))
    ensures p.domains.Some? && Truthy(p.domains.value) && !p.domains.value.JArr? ==> r.None?
  {
    var domains := ProjectConfig.StackDomains(p.domains);
    if domains.None? then None
    else match DomainInfosOf(domains.value)
      case None => None
      case Some(ds) =>
        var arn := if p.certificateArn.Some? && p.certificateArn.value.JStr? then Some(p.certificateArn.value.s) else None;
        Some(Props(Some(p.stackName), p.publishDir, None, Some(p.errorConfigurations), Some(ds), arn))
  }

  /** An explicit zone in a validated entry is the zone the lookup uses; without
      one, the zone is derived from the name alone. */
  lemma ExplicitZoneReachesLookup(j: Json)
    requires ProjectConfig.IsDomainInfo(j) && StringProp(j, "name")
    ensures DomainInfoOf(j).Some?
    ensures TruthyProp(j, "dnsZoneName") ==> ZoneName(DomainInfoOf(j).value) == j.fields["dnsZoneName"].s
    ensures !TruthyProp(j, "dnsZoneName") ==>
      ZoneName(DomainInfoOf(j).value) == ZoneName(DomainInfo(j.fields["name"].s, None))
  {
  }
}

=== FILE: strings.dfy ===
/** The few JavaScript string operations the core relies on:
    `indexOf` for one character, `Array.prototype.join`, and the decimal
    rendering of a non-negative integer inside a template string. */
module Strings {

  /** `s.indexOf(c)`: the first position of `c` in `s`, or -1 when absent. */
  function IndexOf(s: string, c: char): (r: int)
    ensures -1 <= r < |s|
    ensures r == -1 <==> c !in s
    ensures 0 <= r ==> s[r] == c && c !in s[..r]
  {
    if |s| == 0 then -1
    else if s[0] == c then 0
    else
      var k := IndexOf(s[1..], c);
      if k == -1 then -1 else k + 1
  }

  /** The summed length of the elements. */
  function TotalLength(xs: seq<string>): nat
  {
    if |xs| == 0 then 0 else |xs[0]| + TotalLength(xs[1..])
  }

  /** `xs.join(sep)`: the elements with `sep` between neighbours. The join
      starts with the first element and has every element's characters plus
      one separator per gap. */
  function Join(xs: seq<string>, sep: string): (r: string)
    ensures |xs| == 0 ==> r == ""
    ensures |xs| > 0 ==> xs[0] <= r
    ensures |xs| > 0 ==> |r| == TotalLength(xs) + (|xs| - 1) * |sep|
  {
    if |xs| == 0 then ""
    else if |xs| == 1 then xs[0]
    else xs[0] + sep + Join(xs[1..], sep)
  }

  /** Appending one element adds one separator and the element at the end. */
  lemma {:induction false} JoinSnoc(xs: seq<string>, x: string, sep: string)
    requires |xs| > 0
    ensures Join(xs + [x], sep) == Join(xs, sep) + sep + x
    decreases |xs|
  {
    if |xs| == 1 {
      assert xs + [x] == [xs[0], x];
      assert ([xs[0], x])[1..] == [x];
    } else {
      assert (xs + [x])[1..] == xs[1..] + [x];
      JoinSnoc(xs[1..], x, sep);
    }
  }

  /** The join of two elements is the first, the separator, then the second. */
  lemma JoinPair(a: string, b: string, sep: string)
    ensures Join([a, b], sep) == a + sep + b
  {
    assert [a, b][1..] == [b];
  }

  /** The specification's algorithm for `join` (ECMA-262, Array.prototype.join):
      start from the empty string and, for each element, append the separator
      (except before the first) and then the element. */
  method JoinLoop(xs: seq<string>, sep: string) returns (r: string)
    ensures r == Join(xs, sep)
  {
    r := "";
    var k := 0;
    while k < |xs|
      invariant 0 <= k <= |xs|
      invariant r == Join(xs[..k], sep)
    {
      if k > 0 {
        JoinSnoc(xs[..k], xs[k], sep);
        r := r + sep;
      }
      assert xs[..k + 1] == xs[..k] + [xs[k]];
      r := r + xs[k];
      k := k + 1;
    }
    assert xs[..|xs|] == xs;
  }

  /** A decimal digit character. */
  function Digit(d: nat): (c: char)
    requires d < 10
    ensures '0' <= c <= '9'
    ensures (c as int) - ('0' as int) == d
  {
    ['0', '1', '2', '3', '4', '5', '6', '7', '8', '9'][d]
  }

  /** `${n}` for a non-negative integer: its decimal digits, most significant first. */
  function NatToString(n: nat): (s: string)
    ensures |s| > 0
    ensures forall i :: 0 <= i < |s| ==> '0' <= s[i] <= '9'
    ensures |s| > 1 ==> s[0] != '0'
    decreases n
  {
    if n < 10 then [Digit(n)] else NatToString(n / 10) + [Digit(n % 10)]
  }

  /** Reads a string of decimal digits back as a number. */
  function ParseDecimal(s: string): nat
    requires forall i :: 0 <= i < |s| ==> '0' <= s[i] <= '9'
  {
    if |s| == 0 then 0
    else 10 * ParseDecimal(s[..|s| - 1]) + ((s[|s| - 1] as int) - ('0' as int))
  }

  /** Rendering a number in decimal loses nothing: reading it back gives the number. */
  lemma {:induction false} NatToStringRoundTrip(n: nat)
    ensures ParseDecimal(NatToString(n)) == n
    decreases n
  {
    var s := NatToString(n);
    if n >= 10 {
      NatToStringRoundTrip(n / 10);
      assert s[..|s| - 1] == NatToString(n / 10);
    }
  }

  /** Different numbers render differently. */
  lemma NatToStringInjective(m: nat, n: nat)
    requires NatToString(m) == NatToString(n)
    ensures m == n
  {
    NatToStringRoundTrip(m);
    NatToStringRoundTrip(n);
  }
}
